=== FILE: README.md ===
# ChaseTheBug core in Dafny

ChaseTheBug is a plugin for the CSpect ZX Spectrum Next emulator. It hunts
stray memory writes. It watches every write the emulated CPU makes and
names the writing code and the written address from a z88dk linker map
file. It lets through writes that are expected, such as stack pushes and
stores into data segments. It pauses the emulator on the first unexpected
write from each piece of code.

This project models the logic behind that behaviour:

- `NextMem` (`nextmem.dfy`) is the page translator `NextMemResolver`. It
  holds eight MMU slots. Each slot names the bank mapped into one 8 KiB
  window of the 64 KiB logical space. A logical address becomes
  `bank << 16 | offset`.
- `MapLine` (`mapline.dfy`) recognises one line of a z88dk map file. It
  is a deterministic recogniser for the line's regular expression, and
  builds the `Symbol` record.
- `Z88dkMap` (`mapfile.dfy`) is the symbol table `Z88dkMapFile`. It keeps
  the symbols in file order, a name index where the last definition wins,
  and an address index holding every symbol at an address in file order.
  It provides the lookups `GetSymbolByName`, `GetSymbolsByAddress`,
  `FindClosestSymbol` and `LookupSymbol`.
- `PluginConfig` (`config.dfy`) holds two things:
  - the configuration reader, with its rule normalisation;
  - the literal reader `ParseIntWithHexSupport`.
- `WriteGuard` (`writeguard.dfy`) is the write hook `Write`, plus a fold
  of the hook over a run of writes.
- `Text` (`text.dfy`) holds the string and digit operations the .NET code
  borrows from its library: trimming, lower-casing, `Split`, and
  hex/decimal digit values.
- `Wrappers` (`wrappers.dfy`) holds `Option` and `Result`.

The host is replaced by parameters and outputs:

- file contents are `Option<seq<string>>`, where `None` means the file is
  missing;
- the set of existing paths is `set<string>`;
- `GetRegs()` is a `Registers` value;
- `Debugger(Enter)` is the presence of a `Report` in the hook's outcome.

Exceptions the code can raise are `Failure` values:

- a missing map file;
- an MMU index outside the array;
- a malformed or overflowing hex literal.

Some behaviour of the code is easy to miss:

- An address of more than **7** hex digits becomes the sentinel -1.
- The suffix key is spelt `DataSufixes=`.
- Repeated configuration keys **accumulate** their entries.
- Malformed hex after `$` or `0x` **raises** the parser's exception. A
  malformed decimal gives -1.

## Model

| member | source | states |
|---|---|---|
| NextMem.Slot | Z88dkMapFile.cs:182 | The MMU slot of an address is in 0..7; for a 16-bit address it is the 8 KiB window containing it |
| NextMem.PageOffset | Z88dkMapFile.cs:184 | The offset is below 0x2000 and, with the slot, reassembles the 16-bit address |
| NextMem.Translate | Z88dkMapFile.cs:180-185 | The physical address is below 0x1000000, its bank (`>> 16`) is the bank in the address's slot, and its low 16 bits are the window offset, which restores the logical address with the slot |
| NextMem.SetMMU | Z88dkMapFile.cs:187-190 | Mapping a bank into slot i changes only slot i; addresses in slot i then land in that bank at their offset, every other address translates as before |
| NextMem.TranslationDeterminesPages | Z88dkMapFile.cs:176-185 | Two page maps that translate the eight window starts alike are the same map |
| NextMem.DefaultTranslations | Z88dkMapFile.cs:176-190 | With the initial map {255,255,10,11,4,5,0,1}, 0x0000 is 0xFF0000, 0x4000 is 0x0A0000, 0xC000 is 0x000000, 0xFFFF is 0x011FFF; after mapping bank 0x20 into slot 6, 0xC000 is 0x200000 |
| NextMem.SlotMatchesShift | Z88dkMapFile.cs:182 | The slot is `(address >> 13) & 7` on 16-bit values |
| Text.Trim | Z88dkMapFile.cs:109 | The result is a slice of the text with white space only cut from both ends, and it starts and ends with a non-space character |
| Text.TrimEmptyIffBlank | ChaseTheBugPlugin.cs:268-275 | Trimming gives the empty text exactly when the text is blank |
| Text.TrimIdem | ChaseTheBugPlugin.cs:272 | Trimming twice is trimming once |
| Text.Lower | Z88dkMapFile.cs:108 | Lower-casing keeps the length, maps each character to its lower-case form and leaves no upper-case letter |
| Text.Split | ChaseTheBugPlugin.cs:227 | `Split(',')` gives at least one piece and no piece holds the separator |
| Text.JoinSplit | ChaseTheBugPlugin.cs:227 | Joining the pieces of a split with the separator gives back the text |
| Text.SplitJoin | ChaseTheBugPlugin.cs:227 | Splitting a join of separator-free pieces gives back the pieces |
| Text.ValueBound | Z88dkMapFile.cs:107 | k hex digits are worth less than 16^k |
| Text.ValueOfToDigits | Z88dkMapFile.cs:107 | Reading back the digits of a number in base 2..16 gives the number |
| Text.ValueAfterZeros | ChaseTheBugPlugin.cs:280 | Leading zeros do not change a value |
| MapLine.Tail | Z88dkMapFile.cs:98 | After the name, a match captures a non-empty run of hex digits, a word-character segment and a trimmed source, and the line holds `=`, `$` and `;` |
| MapLine.LastMatch | Z88dkMapFile.cs:98 | The name group takes the longest candidate after which the rest of the pattern matches, or there is no match when none does |
| MapLine.HexAddress | Z88dkMapFile.cs:107 | More than 7 digits give exactly the sentinel -1; 7 or fewer give their hex value, in [0, 0x10000000) |
| MapLine.ParseBody | Z88dkMapFile.cs:98-111 | On text after the leading white space, a match gives a name without white space, an address that is -1 or in [0, 0x10000000), a lower-case word segment and a trimmed source |
| MapLine.ParseLine | Z88dkMapFile.cs:98-111 | A matching line gives a name without white space, an address that is -1 or in [0, 0x10000000), a lower-case word segment and a trimmed source, and the line holds `=`, `$` and `;` |
| MapLine.ParseLineOfParts | Z88dkMapFile.cs:98-111 | Every line made of a name, ` = $hex ;`, four comma-ended fields, a segment, a comma and a source gives that name, the hex value or -1, the lower-cased segment and the trimmed source |
| MapLine.ParseLineSound | Z88dkMapFile.cs:98-111 | Conversely, every line the pattern accepts is leading white space, a name without white space, white space, `=`, `$`, hex digits, `;`, four comma-ended fields, a word segment, a comma and a source; its symbol is that name, the hex value or -1, the lower-cased segment and the trimmed source |
| MapLine.FrameCounterLine | Z88dkMapFile.cs:95-111 | The `_frame_counter` sample line gives address 0xADFA, segment `data_user`, source `ula_interrupt.asm:28` |
| Z88dkMap.Matched | Z88dkMapFile.cs:100-129 | There are no more symbols than lines, and each symbol is what the pattern makes of one of the lines |
| Z88dkMap.Positions | Z88dkMapFile.cs:100-104 | The positions of the accepted lines are strictly increasing, and every accepted line's position is among them |
| Z88dkMap.CollectAtPositions | Z88dkMapFile.cs:100-111 | The collected values are exactly one per accepted line, in line order |
| Z88dkMap.MatchedIsCollect | Z88dkMapFile.cs:100-111 | The symbol list is the collection of what the line pattern accepts |
| Z88dkMap.MatchedFollowsLines | Z88dkMapFile.cs:100-111 | The j-th symbol is what the pattern makes of the j-th accepted line, and there is one symbol per accepted line |
| Z88dkMap.MatchedSingle | Z88dkMapFile.cs:100-111 | A single line gives its own symbol when the pattern accepts it, and nothing otherwise |
| Z88dkMap.AtAddress | Z88dkMapFile.cs:117-122 | The symbols at an address are exactly the listed symbols with that address |
| Z88dkMap.AtAddressHead | Z88dkMapFile.cs:117-122 | The first symbol at an address in the index is the first such symbol in file order |
| Z88dkMap.LastNamed | Z88dkMapFile.cs:115 | The name entry is absent exactly when no symbol has that name, and otherwise is a symbol with that name |
| Z88dkMap.LastNamedIsLast | Z88dkMapFile.cs:115 | The name entry is the last symbol in file order with that name |
| Z88dkMap.Add | Z88dkMapFile.cs:111-122 | Appending a symbol and updating both dictionaries keeps them in agreement with the list |
| Z88dkMap.Parse | Z88dkMapFile.cs:84-132 | A missing file is an error; otherwise the symbols are exactly the matching lines in order and both dictionaries agree with them |
| Z88dkMap.GetSymbolByName | Z88dkMapFile.cs:134-137 | The result is the last symbol with that name, or none when no symbol has it |
| Z88dkMap.GetSymbolsByAddress | Z88dkMapFile.cs:139-142 | The result is every symbol at the address in file order, or the empty list |
| Z88dkMap.ClosestIndex | Z88dkMapFile.cs:144-150 | The chosen symbol has the greatest address at or below x; among equals it is the first in file order; there is none exactly when every address exceeds x |
| Z88dkMap.FindClosestSymbol | Z88dkMapFile.cs:144-150 | The result is a symbol at or below x with no other symbol between it and x; it is the first symbol at its address; none when every address exceeds x |
| Z88dkMap.LookupSymbol | Z88dkMapFile.cs:152-171 | Logical and physical addresses are recorded; an exact hit names the first symbol there with offset 0; otherwise the named symbol is the closest one below in the same bank, with offset physical − address > 0; no symbol exactly when none in the bank lies at or below; never a symbol from another bank; the named symbol is always the first in file order at its address, as the stable descending sort picks it |
| Z88dkMap.ClosestOutOfBank | Z88dkMapFile.cs:160-169 | When the closest symbol below lies in another bank, no symbol covers the address from within its bank |
| Z88dkMap.SymbolsAreFound | Z88dkMapFile.cs:111-122 | For every parsed symbol, a symbol with its name is found by name, the symbol is among those at its address, and a lookup of any logical address that translates onto it finds a symbol at that address with offset 0; the same-symbol case for a name defined once is `UniqueNameIsFound` |
| Z88dkMap.UniqueNameIsFound | Z88dkMapFile.cs:134-137 | A name defined once is found as exactly that symbol |
| Z88dkMap.FrameCounterTable | Z88dkMapFile.cs:95-142 | A table parsed from the `_frame_counter` line finds that symbol by name and by address 0xADFA |
| PluginConfig.NormSuffix | ChaseTheBugPlugin.cs:230-232 | A stored suffix is lower-case and starts with `_`; it is the lower-cased text when that already starts with `_`, and otherwise the lower-cased text with one `_` put in front |
| PluginConfig.NormPrefix | ChaseTheBugPlugin.cs:243-245 | A stored prefix is lower-case and ends with `_`; it is the lower-cased text when that already ends with `_`, and otherwise the lower-cased text with one `_` added |
| PluginConfig.NormSegment | ChaseTheBugPlugin.cs:257 | A stored segment name is the text lower-cased character by character |
| PluginConfig.NormalisationIsIdempotent | ChaseTheBugPlugin.cs:230-232 | Normalising a normalised suffix, prefix or segment changes nothing |
| PluginConfig.NormalizedEntriesAreFixed | ChaseTheBugPlugin.cs:225-261 | Every stored entry is its own normal form |
| PluginConfig.Values | ChaseTheBugPlugin.cs:227 | The values after a key are at least one piece, and joined with commas they give the text after the key |
| PluginConfig.AddSuffixes | ChaseTheBugPlugin.cs:225-236 | A line only appends to the suffix list, keeps it normalised and leaves the prefixes and segments alone |
| PluginConfig.AddPrefixes | ChaseTheBugPlugin.cs:238-250 | A line only appends to the prefix list, keeps it normalised and leaves the suffixes and segments alone |
| PluginConfig.AddSegments | ChaseTheBugPlugin.cs:252-261 | A line only appends to the segment list, keeps it normalised and leaves the suffixes and prefixes alone |
| PluginConfig.AddRules | ChaseTheBugPlugin.cs:225-261 | A line only appends to the rule lists and keeps every entry normalised |
| PluginConfig.ApplyLine | ChaseTheBugPlugin.cs:211-261 | A `MapFile=` line naming a missing file is the only error; such a line records the path, other lines keep it; the rules follow `AddRules` |
| PluginConfig.LoadLines | ChaseTheBugPlugin.cs:211-262 | A load that succeeds leaves every rule entry normalised |
| PluginConfig.LoadConfig | ChaseTheBugPlugin.cs:201-263 | Without a configuration file the defaults stay; a successful load has normalised rules |
| PluginConfig.LoadLinesAppend | ChaseTheBugPlugin.cs:211-262 | Loading a + b is loading a and then b from the state a left, so entries of repeated keys accumulate and an error stops the rest |
| PluginConfig.SuffixLine | ChaseTheBugPlugin.cs:225-236 | A `DataSufixes=` line appends the normalised comma-separated pieces, in order, and changes nothing else |
| PluginConfig.PrefixLine | ChaseTheBugPlugin.cs:238-250 | A `DataPrefixes=` line appends the normalised pieces and changes nothing else |
| PluginConfig.SegmentLine | ChaseTheBugPlugin.cs:252-261 | A `DataSegments=` line appends the lower-cased pieces and changes nothing else |
| PluginConfig.OtherLine | ChaseTheBugPlugin.cs:211-261 | A line with none of the keys changes nothing |
| PluginConfig.SuffixRuleAdmits | ChaseTheBugPlugin.cs:225-236 | After `DataSufixes=v`, every segment ending with the normal form of v is writable |
| PluginConfig.RepeatedSuffixLines | ChaseTheBugPlugin.cs:225-236 | Two `DataSufixes=` lines keep the entries of both, in order |
| PluginConfig.UserSuffixLine | ChaseTheBugPlugin.cs:225-236 | `DataSufixes=User` stores the suffix `_user` |
| PluginConfig.ToInt32 | ChaseTheBugPlugin.cs:280 | An unsigned 32-bit value is read as the signed `int` equal to it modulo 2^32 |
| PluginConfig.HexNumber | ChaseTheBugPlugin.cs:280 | The format error is raised exactly when the trimmed text is not a non-empty run of hex digits; the overflow error exactly when it is such a run worth 2^32 or more; otherwise the result is the signed 32-bit value congruent modulo 2^32 to the digits' value |
| PluginConfig.Decimal | ChaseTheBugPlugin.cs:291-294 | The parse succeeds exactly when the trimmed text is an optional `+` or `-` and a non-empty run of decimal digits whose signed value fits a signed 32-bit `int`, and then gives that value |
| PluginConfig.ParseIntWithHexSupport | ChaseTheBugPlugin.cs:266-297 | Null or blank text gives -1; a success is a signed 32-bit value; an error only comes from text with a `$` or `0x` prefix |
| PluginConfig.SecondBlankTestIsDead | ChaseTheBugPlugin.cs:272-275 | Trimming non-blank text never leaves it blank |
| PluginConfig.ParseIgnoresSurroundingSpace | ChaseTheBugPlugin.cs:268-272 | The input is trimmed before anything else, so any text reads exactly as its trimmed form (` 42` as `42`, `$ FF` as `$FF`) |
| PluginConfig.DollarDispatch | ChaseTheBugPlugin.cs:278-281 | Trimmed text starting with `$` is read as hex after the `$` |
| PluginConfig.HexPrefixDispatch | ChaseTheBugPlugin.cs:284-287 | Trimmed text starting with `0x` or `0X` is read as hex after the prefix |
| PluginConfig.DecimalDispatch | ChaseTheBugPlugin.cs:289-296 | Trimmed text with neither prefix is read as decimal, and gives -1 when that fails |
| PluginConfig.HexDigitsRead | ChaseTheBugPlugin.cs:280 | Hex digits give their value wrapped to 32 bits, or the overflow error when the value needs more than 32 bits |
| PluginConfig.LeadingZerosDoNotWiden | ChaseTheBugPlugin.cs:280 | Hex digits after any number of `0`s read exactly as the digits alone, so leading zeros never cause the overflow error |
| PluginConfig.HexRoundTrip | ChaseTheBugPlugin.cs:278-287 | `$` or `0x` followed by the hex digits of n < 2^32 reads back as n taken as a signed `int` |
| PluginConfig.AllOnesIsMinusOne | ChaseTheBugPlugin.cs:278-281 | `$FFFFFFFF` reads as -1, the same value as the blank-input sentinel |
| PluginConfig.HexOverflow | ChaseTheBugPlugin.cs:280 | Hex text worth 2^32 or more raises the overflow error |
| PluginConfig.DecimalOfText | ChaseTheBugPlugin.cs:291-294 | The decimal reader recovers every `int` from its text |
| PluginConfig.DecimalRoundTrip | ChaseTheBugPlugin.cs:266-297 | Every `int` in decimal reads back as itself |
| PluginConfig.DollarAloneIsMalformed | ChaseTheBugPlugin.cs:278-281 | `$` with no digits raises the format error |
| PluginConfig.BadHexDigitIsMalformed | ChaseTheBugPlugin.cs:284-287 | `0x` followed by text that opens with neither white space nor a hex digit (`0xG1`, say) raises the format error instead of giving -1 |
| PluginConfig.WordIsMinusOne | ChaseTheBugPlugin.cs:289-296 | `abc` is not a decimal number and gives -1 |
| WriteGuard.MmuIndex | ChaseTheBugPlugin.cs:88 | `(byte)(port - 0x50)` is in 0..255 and is the slot number for ports 0x50..0x57 |
| WriteGuard.Write | ChaseTheBugPlugin.cs:84-122 | The hook always returns false. A NextReg write sets slot `(byte)(port-0x50)` and nothing else, or faults when that is 8 or more. A memory write never changes the pages. A stack write, or one whose origin was already reported, is silent whatever the rules. A report happens exactly when the write is not a stack write, the origin is new, and the target has no symbol or its segment is not writable. A report adds exactly the origin's physical address to the visited set; silence changes nothing |
| WriteGuard.Run | ChaseTheBugPlugin.cs:84-122 | Over a run of writes, the visited set grows by exactly the reported origins; no origin is reported twice or after it was visited |
| WriteGuard.VisitedOriginStaysQuiet | ChaseTheBugPlugin.cs:98-101 | After a run, any write from a visited origin is silent and leaves the state alone |
| WriteGuard.ConfiguredSuffixSilences | ChaseTheBugPlugin.cs:103-113 | After `DataSufixes=v`, a write whose target symbol's segment ends with v's normal form is silent |
| WriteGuard.MmuWriteRemaps | ChaseTheBugPlugin.cs:86-91 | A write to NextReg 0x56 maps the bank into slot 6, so 0xC000 lands at the bank's start, and other slots translate as before |
| WriteGuard.BadMmuIndexFaults | ChaseTheBugPlugin.cs:88 | NextReg 0x58 gives index 8 and 0x4F gives index 255, and both fault |

## Left out

- File I/O: `File.Exists` and `File.ReadLines` become parameters, either the lines or `None` for a missing file, and a set of existing paths.
- Console output: the parse warnings, the listing of loaded symbols and rules, the MMU and report messages, and every `ToString` are not modelled.
- The host: `GetRegs` is a parameter, and the debugger pause is the presence of a report.
- `Init`, `Read`, `KeyPressed`, `OSTick`, `Tick`, `Quit`, `Reset` and `TraceRange` are left out. They are registration glue, stubs, or code that is commented out.
- `CSpectExtensions.ReadWord` is used only by commented-out code.
- MapLine.ParseLine: the .NET regex engine is replaced by a recogniser. It searches the name group from the longest non-space run downwards, which is the order backtracking tries. `\s` and `\w` are treated as ASCII. `.` matches any character, since lines arrive without their terminators.
- Text.Lower, Text.Trim and Text.StartsWith/EndsWith are ASCII operations. The culture-sensitive `ToLower`, `StartsWith` and `EndsWith`, and `Trim` over Unicode white space, are not modelled.
- PluginConfig.ApplyLine: a `MapFile=` line only checks that the file exists and records its path. Parsing that file is `Z88dkMap.Parse`. A missing file ends the load, as the exception does in the code.
- PluginConfig.HexNumber and PluginConfig.Decimal: the .NET number parsers accept trailing NUL characters and culture-specific signs. Neither is modelled. Signs are ASCII `+` and `-`, and white space is ASCII.
- WriteGuard.Write: a loaded symbol table is a precondition. With no `MapFile=` line the code dereferences null on any memory write that is not a stack write.
- WriteGuard.Write: access kinds other than a NextReg write all take the memory-write path, as in the code. Only these two kinds are registered.

=== FILE: config.dfy ===
/** The plugin's configuration (`ChaseTheBugPlugin.LoadConfig`): the map
    file to load and the three lists of rules that mark a segment as
    writable data, each entry normalised as it is read; and the numeric
    literal reader `ParseIntWithHexSupport`. */
module PluginConfig {
  import opened Wrappers
  import opened Text

  // ---------------------------------------------------------------------
  // Rules

  /** The writable-data rules: segment-name suffixes, prefixes and whole
      segment names. */
  datatype Rules = Rules(suffixes: seq<string>, prefixes: seq<string>, segments: seq<string>)

  /** The path of the map file the last `MapFile=` line named, and the
      rules. */
  datatype Config = Config(mapFile: Option<string>, rules: Rules)

  const Defaults := Config(None, Rules([], [], []))

  /** A configured suffix: lower-cased, with a `_` put in front unless it
      already starts with one. */
  function NormSuffix(s: string): (r: string)
    ensures IsLowerText(r) && StartsWith(r, "_")
    ensures r == Lower(s) || r == "_" + Lower(s)
    ensures r == Lower(s) <==> StartsWith(Lower(s), "_")
  {
    var l := Lower(s);
    if StartsWith(l, "_") then l else "_" + l
  }

  /** A configured prefix: lower-cased, with a `_` added at the end unless it
      already ends with one. */
  function NormPrefix(s: string): (r: string)
    ensures IsLowerText(r) && EndsWith(r, "_")
    ensures r == Lower(s) || r == Lower(s) + "_"
    ensures r == Lower(s) <==> EndsWith(Lower(s), "_")
  {
    var l := Lower(s);
    if EndsWith(l, "_") then l else l + "_"
  }

  /** A configured segment name: lower-cased. */
  function NormSegment(s: string): (r: string)
    ensures IsLowerText(r) && |r| == |s|
    ensures forall k :: 0 <= k < |s| ==> r[k] == LowerChar(s[k])
  {
    Lower(s)
  }

  /** Normalising an entry a second time changes nothing. */
  lemma NormalisationIsIdempotent(s: string)
    ensures NormSuffix(NormSuffix(s)) == NormSuffix(s)
    ensures NormPrefix(NormPrefix(s)) == NormPrefix(s)
    ensures NormSegment(NormSegment(s)) == NormSegment(s)
  {
    LowerOfLowerText(NormSuffix(s));
    LowerOfLowerText(NormPrefix(s));
    LowerOfLowerText(NormSegment(s));
  }

  /** Every stored entry has the shape its list promises. */
  predicate Normalized(r: Rules) {
    && (forall i :: 0 <= i < |r.suffixes| ==> IsLowerText(r.suffixes[i]) && StartsWith(r.suffixes[i], "_"))
    && (forall i :: 0 <= i < |r.prefixes| ==> IsLowerText(r.prefixes[i]) && EndsWith(r.prefixes[i], "_"))
    && (forall i :: 0 <= i < |r.segments| ==> IsLowerText(r.segments[i]))
  }

  /** A normalised entry is its own normal form, so the lists are fixed
      points of normalisation. */
  lemma NormalizedEntriesAreFixed(r: Rules)
    requires Normalized(r)
    ensures forall i :: 0 <= i < |r.suffixes| ==> NormSuffix(r.suffixes[i]) == r.suffixes[i]
    ensures forall i :: 0 <= i < |r.prefixes| ==> NormPrefix(r.prefixes[i]) == r.prefixes[i]
    ensures forall i :: 0 <= i < |r.segments| ==> NormSegment(r.segments[i]) == r.segments[i]
  {
    forall i | 0 <= i < |r.suffixes| ensures NormSuffix(r.suffixes[i]) == r.suffixes[i] {
      LowerOfLowerText(r.suffixes[i]);
    }
    forall i | 0 <= i < |r.prefixes| ensures NormPrefix(r.prefixes[i]) == r.prefixes[i] {
      LowerOfLowerText(r.prefixes[i]);
    }
    forall i | 0 <= i < |r.segments| ensures NormSegment(r.segments[i]) == r.segments[i] {
      LowerOfLowerText(r.segments[i]);
    }
  }

  function NormSuffixes(parts: seq<string>): (r: seq<string>)
    ensures |r| == |parts| && forall k :: 0 <= k < |r| ==> r[k] == NormSuffix(parts[k])
  {
    seq(|parts|, k requires 0 <= k < |parts| => NormSuffix(parts[k]))
  }

  function NormPrefixes(parts: seq<string>): (r: seq<string>)
    ensures |r| == |parts| && forall k :: 0 <= k < |r| ==> r[k] == NormPrefix(parts[k])
  {
    seq(|parts|, k requires 0 <= k < |parts| => NormPrefix(parts[k]))
  }

  function NormSegments(parts: seq<string>): (r: seq<string>)
    ensures |r| == |parts| && forall k :: 0 <= k < |r| ==> r[k] == NormSegment(parts[k])
  {
    seq(|parts|, k requires 0 <= k < |parts| => NormSegment(parts[k]))
  }

  /** A segment the rules let the program write: it ends with a suffix,
      starts with a prefix or is one of the named segments. */
  predicate Writable(r: Rules, segment: string) {
    || (exists i :: 0 <= i < |r.suffixes| && EndsWith(segment, r.suffixes[i]))
    || (exists i :: 0 <= i < |r.prefixes| && StartsWith(segment, r.prefixes[i]))
    || segment in r.segments
  }

  // ---------------------------------------------------------------------
  // Reading the configuration file

  const MapFileKey := "MapFile="
  /** The key as the program spells it. */
  const SuffixKey := "DataSufixes="
  const PrefixKey := "DataPrefixes="
  const SegmentKey := "DataSegments="

  /** A `MapFile=` line naming a file that does not exist: loading the map
      there raises the map loader's not-found error, which ends the load. */
  datatype ConfigError = ConfiguredMapFileMissing(path: string)

  /** The comma-separated values after a key. */
  function Values(line: string, key: string): (r: seq<string>)
    requires StartsWith(line, key)
    ensures |r| >= 1 && Join(r, ',') == line[|key|..]
  {
    JoinSplit(line[|key|..], ',');
    Split(line[|key|..], ',')
  }

  /** The suffixes a `DataSufixes=` line adds. */
  function AddSuffixes(r: Rules, line: string): (r': Rules)
    ensures Normalized(r) ==> Normalized(r')
    ensures r.suffixes <= r'.suffixes && r'.prefixes == r.prefixes && r'.segments == r.segments
  {
    if StartsWith(line, SuffixKey) then r.(suffixes := r.suffixes + NormSuffixes(Values(line, SuffixKey))) else r
  }

  /** The prefixes a `DataPrefixes=` line adds. */
  function AddPrefixes(r: Rules, line: string): (r': Rules)
    ensures Normalized(r) ==> Normalized(r')
    ensures r.prefixes <= r'.prefixes && r'.suffixes == r.suffixes && r'.segments == r.segments
  {
    if StartsWith(line, PrefixKey) then r.(prefixes := r.prefixes + NormPrefixes(Values(line, PrefixKey))) else r
  }

  /** The segment names a `DataSegments=` line adds. */
  function AddSegments(r: Rules, line: string): (r': Rules)
    ensures Normalized(r) ==> Normalized(r')
    ensures r.segments <= r'.segments && r'.suffixes == r.suffixes && r'.prefixes == r.prefixes
  {
    if StartsWith(line, SegmentKey) then r.(segments := r.segments + NormSegments(Values(line, SegmentKey))) else r
  }

  /** The rules one line adds. The keys are tested one after the other;
      no line starts with two of them. */
  function AddRules(r: Rules, line: string): (r': Rules)
    ensures Normalized(r) ==> Normalized(r')
    ensures r.suffixes <= r'.suffixes && r.prefixes <= r'.prefixes && r.segments <= r'.segments
  {
    AddSegments(AddPrefixes(AddSuffixes(r, line), line), line)
  }

  /** One configuration line. A `MapFile=` line loads the named map file
      there and then; a missing file raises an error that ends the whole
      load. */
  function ApplyLine(files: set<string>, c: Config, line: string): (r: Result<Config, ConfigError>)
    ensures r.Failure? <==> StartsWith(line, MapFileKey) && line[|MapFileKey|..] !in files
    ensures r.Success? ==> r.value.rules == AddRules(c.rules, line)
    ensures r.Success? && !StartsWith(line, MapFileKey) ==> r.value.mapFile == c.mapFile
    ensures r.Success? && StartsWith(line, MapFileKey) ==> r.value.mapFile == Some(line[|MapFileKey|..])
  {
    var c1 :- if StartsWith(line, MapFileKey) then
                var path := line[|MapFileKey|..];
                if path in files then Success(c.(mapFile := Some(path))) else Failure(ConfiguredMapFileMissing(path))
              else Success(c);
    Success(c1.(rules := AddRules(c1.rules, line)))
  }

  /** The lines in order; the first error stops the load. */
  function LoadLines(files: set<string>, c: Config, lines: seq<string>): (r: Result<Config, ConfigError>)
    ensures r.Success? && Normalized(c.rules) ==> Normalized(r.value.rules)
    decreases |lines|
  {
    if |lines| == 0 then Success(c)
    else
      var c1 :- ApplyLine(files, c, lines[0]);
      LoadLines(files, c1, lines[1..])
  }

  /** `LoadConfig`: without a configuration file the defaults stay. */
  function LoadConfig(files: set<string>, config: Option<seq<string>>): (r: Result<Config, ConfigError>)
    ensures config.None? ==> r == Success(Defaults)
    ensures r.Success? ==> Normalized(r.value.rules)
  {
    match config
    case None => Success(Defaults)
    case Some(lines) => LoadLines(files, Defaults, lines)
  }

  lemma LoadLinesStep(files: set<string>, c: Config, lines: seq<string>)
    requires |lines| > 0
    ensures LoadLines(files, c, lines) == (match ApplyLine(files, c, lines[0])
                                           case Success(c1) => LoadLines(files, c1, lines[1..])
                                           case Failure(e) => Failure(e))
  {
  }

  /** Reading a file in two parts is reading it whole: later lines continue
      from the state the earlier ones left, so repeated keys accumulate. */
  lemma {:induction false} LoadLinesAppend(files: set<string>, c: Config, a: seq<string>, b: seq<string>)
    ensures LoadLines(files, c, a + b) == (match LoadLines(files, c, a)
                                           case Success(c1) => LoadLines(files, c1, b)
                                           case Failure(e) => Failure(e))
    decreases |a|
  {
    if |a| > 0 {
      assert (a + b)[0] == a[0];
      assert (a + b)[1..] == a[1..] + b;
      LoadLinesStep(files, c, a);
      LoadLinesStep(files, c, a + b);
      match ApplyLine(files, c, a[0])
      case Success(c1) => LoadLinesAppend(files, c1, a[1..], b);
      case Failure(_) =>
    } else {
      assert a + b == b;
    }
  }

  /** A `DataSufixes=` line appends the normalised pieces of its value, in
      order, and touches nothing else. */
  lemma SuffixLine(files: set<string>, c: Config, v: string)
    ensures ApplyLine(files, c, SuffixKey + v) == Success(c.(rules := c.rules.(suffixes := c.rules.suffixes + NormSuffixes(Split(v, ',')))))
  {
    var line := SuffixKey + v;
    KeyLine(SuffixKey, v);
    DiffersAt(line, MapFileKey, 0);
    DiffersAt(line, PrefixKey, 4);
    DiffersAt(line, SegmentKey, 5);
    var r1 := AddSuffixes(c.rules, line);
    assert r1 == c.rules.(suffixes := c.rules.suffixes + NormSuffixes(Split(v, ',')));
    assert AddRules(c.rules, line) == r1;
  }

  /** A `DataPrefixes=` line appends the normalised pieces of its value. */
  lemma PrefixLine(files: set<string>, c: Config, v: string)
    ensures ApplyLine(files, c, PrefixKey + v) == Success(c.(rules := c.rules.(prefixes := c.rules.prefixes + NormPrefixes(Split(v, ',')))))
  {
    var line := PrefixKey + v;
    KeyLine(PrefixKey, v);
    DiffersAt(line, MapFileKey, 0);
    DiffersAt(line, SuffixKey, 4);
    DiffersAt(line, SegmentKey, 4);
    assert AddSuffixes(c.rules, line) == c.rules;
    var r2 := AddPrefixes(c.rules, line);
    assert r2 == c.rules.(prefixes := c.rules.prefixes + NormPrefixes(Split(v, ',')));
    assert AddRules(c.rules, line) == r2;
  }

  /** A `DataSegments=` line appends the lower-cased pieces of its value. */
  lemma SegmentLine(files: set<string>, c: Config, v: string)
    ensures ApplyLine(files, c, SegmentKey + v) == Success(c.(rules := c.rules.(segments := c.rules.segments + NormSegments(Split(v, ',')))))
  {
    var line := SegmentKey + v;
    KeyLine(SegmentKey, v);
    DiffersAt(line, MapFileKey, 0);
    DiffersAt(line, SuffixKey, 5);
    DiffersAt(line, PrefixKey, 4);
    assert AddSuffixes(c.rules, line) == c.rules;
    assert AddPrefixes(c.rules, line) == c.rules;
    var r3 := AddSegments(c.rules, line);
    assert r3 == c.rules.(segments := c.rules.segments + NormSegments(Split(v, ',')));
    assert AddRules(c.rules, line) == r3;
  }

  lemma KeyLine(key: string, v: string)
    ensures StartsWith(key + v, key) && (key + v)[|key|..] == v
  {
    assert (key + v)[..|key|] == key;
  }

  lemma DiffersAt(line: string, key: string, i: nat)
    requires i < |key| && i < |line| && line[i] != key[i]
    ensures !StartsWith(line, key)
  {
  }

  /** A line with none of the keys changes nothing. */
  lemma OtherLine(files: set<string>, c: Config, line: string)
    requires !StartsWith(line, MapFileKey) && !StartsWith(line, SuffixKey)
    requires !StartsWith(line, PrefixKey) && !StartsWith(line, SegmentKey)
    ensures ApplyLine(files, c, line) == Success(c)
  {
  }

  /** A suffix without commas, once configured, makes every segment that
      ends with its normal form writable. */
  lemma SuffixRuleAdmits(files: set<string>, c: Config, v: string, segment: string)
    requires ',' !in v
    requires EndsWith(segment, NormSuffix(v))
    ensures ApplyLine(files, c, SuffixKey + v).Success?
    ensures Writable(ApplyLine(files, c, SuffixKey + v).value.rules, segment)
  {
    SuffixLine(files, c, v);
    SplitJoin([v], ',');
    var r := ApplyLine(files, c, SuffixKey + v).value.rules;
    assert r.suffixes[|c.rules.suffixes|] == NormSuffix(v);
  }

  /** Two `DataSufixes=` lines: the entries of both are kept, in order. */
  lemma RepeatedSuffixLines(files: set<string>, c: Config, v: string, w: string)
    ensures LoadLines(files, c, [SuffixKey + v, SuffixKey + w])
         == Success(c.(rules := c.rules.(suffixes := c.rules.suffixes + NormSuffixes(Split(v, ',')) + NormSuffixes(Split(w, ',')))))
  {
    var lines := [SuffixKey + v, SuffixKey + w];
    SuffixLine(files, c, v);
    var c1 := c.(rules := c.rules.(suffixes := c.rules.suffixes + NormSuffixes(Split(v, ','))));
    SuffixLine(files, c1, w);
    LoadLinesStep(files, c, lines);
    assert lines[1..] == [SuffixKey + w];
    LoadLinesStep(files, c1, lines[1..]);
    assert lines[1..][1..] == [];
  }

  /** `DataSufixes=User` makes `_user` the one suffix. */
  lemma UserSuffixLine()
    ensures ApplyLine({}, Defaults, "DataSufixes=User") == Success(Config(None, Rules(["_user"], [], [])))
  {
    SuffixLine({}, Defaults, "User");
    assert SuffixKey + "User" == "DataSufixes=User";
    UserPieces();
    assert [] + ["_user"] == ["_user"];
  }

  lemma UserPieces()
    ensures NormSuffixes(Split("User", ',')) == ["_user"]
  {
    assert Join(["User"], ',') == "User";
    SplitJoin(["User"], ',');
    assert Lower("User") == "user" by {
      assert LowerChar('U') == 'u';
    }
    assert NormSuffix("User") == "_user";
  }

  // ---------------------------------------------------------------------
  // ParseIntWithHexSupport

  /** The exceptions `int.Parse` raises. */
  datatype NumberError = FormatError | OverflowError

  const TwoTo31 := 0x8000_0000
  const TwoTo32 := 0x1_0000_0000

  predicate IsInt32(x: int) {
    -TwoTo31 <= x < TwoTo31
  }

  /** An unsigned 32-bit value read back as a signed one. */
  function ToInt32(v: nat): (x: int)
    requires v < TwoTo32
    ensures IsInt32(x)
    ensures x % TwoTo32 == v
  {
    if v < TwoTo31 then v else v - TwoTo32
  }

  /** `int.Parse(s, NumberStyles.HexNumber)`: optional white space around
      at least one hex digit, no sign, no `0x`. The digits are an unsigned
      32-bit value (leading zeros do not count towards the width), which is
      then taken as a signed `int`. */
  function HexNumber(s: string): (r: Result<int, NumberError>)
    ensures r.Success? ==> IsInt32(r.value)
    ensures r == Failure(FormatError) <==> !(|Trim(s)| > 0 && forall k :: 0 <= k < |Trim(s)| ==> IsHexDigit(Trim(s)[k]))
    ensures r == Failure(OverflowError) <==> (|Trim(s)| > 0 && (forall k :: 0 <= k < |Trim(s)| ==> IsHexDigit(Trim(s)[k])) && Value(Trim(s), 16) >= TwoTo32)
    ensures r.Success? ==> r.value % TwoTo32 == Value(Trim(s), 16)
  {
    var body := SkipSpace(s);
    var n := Span(body, IsHexDigit);
    HexRunIsTrim(s);
    if n == 0 || !AllSpace(body[n..]) then Failure(FormatError)
    else
      var v := Value(body[..n], 16);
      if v >= TwoTo32 then Failure(OverflowError) else Success(ToInt32(v))
  }

  /** The hex run `HexNumber` scans is well formed exactly when the trimmed
      text is all hex digits, and then it is the trimmed text. */
  lemma HexRunIsTrim(s: string)
    ensures var body := SkipSpace(s); var n := Span(body, IsHexDigit);
      && ((n > 0 && AllSpace(body[n..])) <==> (|Trim(s)| > 0 && forall k :: 0 <= k < |Trim(s)| ==> IsHexDigit(Trim(s)[k])))
      && (n > 0 && AllSpace(body[n..]) ==> body[..n] == Trim(s))
  {
    TrimSplit(s);
    assert forall c :: IsHexDigit(c) ==> !IsSpace(c);
    RunIsTrim(SkipSpace(s), Trim(s), IsHexDigit);
  }

  /** A non-empty run of ASCII decimal digits. */
  predicate Digits(d: string) {
    |d| > 0 && forall k :: 0 <= k < |d| ==> IsDecDigit(d[k])
  }

  /** What the integer style accepts once the surrounding white space is
      gone: an optional `+` or `-`, then decimal digits; the value they
      denote, before any range check. */
  function SignedDecimal(t: string): (r: Option<int>)
    ensures r.Some? ==> |t| > 0
  {
    if |t| > 0 && t[0] == '-' && Digits(t[1..]) then Some(-(Value(t[1..], 10) as int))
    else if |t| > 0 && t[0] == '+' && Digits(t[1..]) then Some(Value(t[1..], 10))
    else if Digits(t) then Some(Value(t, 10))
    else None
  }

  /** `int.TryParse(s)` with the integer style: optional white space, an
      optional `+` or `-`, at least one decimal digit; `None` when the text
      is not of that form or the value does not fit an `int`. */
  function Decimal(s: string): (r: Option<int>)
    ensures r.Some? ==> IsInt32(r.value)
    ensures r.Some? <==> SignedDecimal(Trim(s)).Some? && IsInt32(SignedDecimal(Trim(s)).value)
    ensures r.Some? ==> r.value == SignedDecimal(Trim(s)).value
  {
    var body := SkipSpace(s);
    var signed := |body| > 0 && (body[0] == '-' || body[0] == '+');
    var rest := if signed then body[1..] else body;
    var n := Span(rest, IsDecDigit);
    DecimalRunIsTrim(s);
    if n == 0 || !AllSpace(rest[n..]) then None
    else
      var v: int := Value(rest[..n], 10);
      var x := if signed && body[0] == '-' then -v else v;
      if IsInt32(x) then Some(x) else None
  }

  /** The sign and digit run `Decimal` scans is well formed exactly when the
      trimmed text is a signed decimal, and then it denotes its value. */
  lemma DecimalRunIsTrim(s: string)
    ensures var body := SkipSpace(s);
      var signed := |body| > 0 && (body[0] == '-' || body[0] == '+');
      var rest := if signed then body[1..] else body;
      var n := Span(rest, IsDecDigit);
      && ((n > 0 && AllSpace(rest[n..])) <==> SignedDecimal(Trim(s)).Some?)
      && (n > 0 && AllSpace(rest[n..]) ==>
            SignedDecimal(Trim(s)).value == if signed && body[0] == '-' then -(Value(rest[..n], 10) as int) else Value(rest[..n], 10))
  {
    var body := SkipSpace(s);
    TrimSplit(s);
    if |body| > 0 && (body[0] == '-' || body[0] == '+') {
      SignedRun(body, Trim(s));
    } else {
      UnsignedRun(body, Trim(s));
    }
  }

  /** `DecimalRunIsTrim` when the text opens with a sign. */
  lemma SignedRun(body: string, t: string)
    requires |t| <= |body| && t == body[..|t|] && AllSpace(body[|t|..])
    requires |t| > 0 ==> !IsSpace(t[|t| - 1])
    requires |body| > 0 && (body[0] == '-' || body[0] == '+')
    ensures var n := Span(body[1..], IsDecDigit);
      && ((n > 0 && AllSpace(body[1..][n..])) <==> SignedDecimal(t).Some?)
      && (n > 0 && AllSpace(body[1..][n..]) ==>
            SignedDecimal(t).value == if body[0] == '-' then -(Value(body[1..][..n], 10) as int) else Value(body[1..][..n], 10))
  {
    SignedPieces(body, t);
    SignedDecimalOfSign(t);
    assert forall c :: IsDecDigit(c) ==> !IsSpace(c);
    RunIsTrim(body[1..], t[1..], IsDecDigit);
  }

  lemma SignedDecimalOfSign(t: string)
    requires |t| > 0 && (t[0] == '-' || t[0] == '+')
    ensures SignedDecimal(t) == if !Digits(t[1..]) then None
      else if t[0] == '-' then Some(-(Value(t[1..], 10) as int)) else Some(Value(t[1..], 10))
  {
    assert !IsDecDigit(t[0]);
  }

  /** Past the sign, the trimmed text is again the text with its
      white-space tail cut off. */
  lemma SignedPieces(body: string, t: string)
    requires |t| <= |body| && t == body[..|t|] && AllSpace(body[|t|..])
    requires |t| > 0 ==> !IsSpace(t[|t| - 1])
    requires |body| > 0 && (body[0] == '-' || body[0] == '+')
    ensures |t| > 0 && t[0] == body[0]
    ensures |t[1..]| <= |body[1..]| && t[1..] == body[1..][..|t[1..]|] && AllSpace(body[1..][|t[1..]|..])
    ensures |t[1..]| > 0 ==> !IsSpace(t[1..][|t[1..]| - 1])
  {
    assert !AllSpace(body[0..]) by { assert body[0..][0] == body[0]; }
    var m := |t|;
    assert m != 0;
    assert body[1..][m - 1..] == body[m..];
  }

  /** `DecimalRunIsTrim` when the text does not open with a sign. */
  lemma UnsignedRun(body: string, t: string)
    requires |t| <= |body| && t == body[..|t|] && AllSpace(body[|t|..])
    requires |t| > 0 ==> !IsSpace(t[|t| - 1])
    requires !(|body| > 0 && (body[0] == '-' || body[0] == '+'))
    ensures var n := Span(body, IsDecDigit);
      && ((n > 0 && AllSpace(body[n..])) <==> SignedDecimal(t).Some?)
      && (n > 0 && AllSpace(body[n..]) ==> SignedDecimal(t).value == Value(body[..n], 10))
  {
    assert |t| > 0 ==> t[0] == body[0];
    assert forall c :: IsDecDigit(c) ==> !IsSpace(c);
    RunIsTrim(body, t, IsDecDigit);
  }

  /** The text starts with `0x` or `0X`. */
  predicate HasHexPrefix(t: string) {
    |t| >= 2 && t[0] == '0' && (t[1] == 'x' || t[1] == 'X')
  }

  /** `ParseIntWithHexSupport`: -1 for null or blank text; `$` or `0x`
      followed by hex digits is read as hex, and anything malformed there
      raises the parser's error; otherwise decimal, with -1 when that
      fails. */
  function ParseIntWithHexSupport(input: Option<string>): (r: Result<int, NumberError>)
    ensures input.None? || AllSpace(input.value) ==> r == Success(-1)
    ensures r.Success? ==> IsInt32(r.value)
    ensures r.Failure? ==> StartsWith(Trim(input.value), "$") || HasHexPrefix(Trim(input.value))
  {
    if input.None? || AllSpace(input.value) then Success(-1)
    else
      var t := Trim(input.value);
      if AllSpace(t) then Success(-1)
      else if StartsWith(t, "$") then HexNumber(t[1..])
      else if HasHexPrefix(t) then HexNumber(t[2..])
      else match Decimal(t)
        case Some(x) => Success(x)
        case None => Success(-1)
  }

  /** The reader trims its input first, so white space around the text
      changes nothing: ` 42` reads as `42`, `$ FF` as `$FF`. */
  lemma ParseIgnoresSurroundingSpace(s: string)
    ensures ParseIntWithHexSupport(Some(s)) == ParseIntWithHexSupport(Some(Trim(s)))
  {
    TrimIdem(s);
    TrimEmptyIffBlank(s);
    TrimEmptyIffBlank(Trim(s));
  }

  /** Trimming never leaves a non-blank text blank, so the second blank test
      in the source never fires. */
  lemma SecondBlankTestIsDead(s: string)
    requires !AllSpace(s)
    ensures !AllSpace(Trim(s))
  {
    TrimEmptyIffBlank(s);
  }

  /** Text already trimmed and starting with `$` is read as hex after the
      `$`. */
  lemma DollarDispatch(t: string)
    requires |t| > 0 && t[0] == '$' && !IsSpace(t[|t| - 1])
    ensures ParseIntWithHexSupport(Some(t)) == HexNumber(t[1..])
  {
    TrimOfNonSpaceEnds(t);
    assert !AllSpace(t);
    assert StartsWith(t, "$") by { assert t[..1] == "$"; }
  }

  /** Text already trimmed and starting with `0x` or `0X` is read as hex
      after the prefix. */
  lemma HexPrefixDispatch(t: string)
    requires HasHexPrefix(t) && !IsSpace(t[|t| - 1])
    ensures ParseIntWithHexSupport(Some(t)) == HexNumber(t[2..])
  {
    assert !IsSpace(t[0]);
    TrimOfNonSpaceEnds(t);
    assert !AllSpace(t);
    assert !StartsWith(t, "$") by { assert t[0] != "$"[0]; }
  }

  /** Trimmed text with neither prefix is read as decimal, -1 on failure. */
  lemma DecimalDispatch(t: string)
    requires |t| > 0 && !IsSpace(t[0]) && !IsSpace(t[|t| - 1])
    requires t[0] != '$' && !HasHexPrefix(t)
    ensures ParseIntWithHexSupport(Some(t)) == (match Decimal(t) case Some(x) => Success(x) case None => Success(-1))
  {
    TrimOfNonSpaceEnds(t);
  }

  /** A run of hex digits reads as its value, wrapped to 32 bits, or
      overflows when it does not fit 32 bits. */
  lemma HexDigitsRead(digits: string)
    requires |digits| > 0 && forall k :: 0 <= k < |digits| ==> IsHexDigit(digits[k])
    ensures Value(digits, 16) < TwoTo32 ==> HexNumber(digits) == Success(ToInt32(Value(digits, 16)))
    ensures Value(digits, 16) >= TwoTo32 ==> HexNumber(digits) == Failure(OverflowError)
  {
    assert Span(digits, IsSpace) == 0;
    assert SkipSpace(digits) == digits;
    SpanOverRun(digits, [], IsHexDigit);
    assert digits + [] == digits;
  }

  /** Leading zeros do not count towards the 32-bit width: hex digits
      after any number of `0`s read exactly as the digits alone. */
  lemma LeadingZerosDoNotWiden(zeros: string, digits: string)
    requires forall k :: 0 <= k < |zeros| ==> zeros[k] == '0'
    requires |digits| > 0 && forall k :: 0 <= k < |digits| ==> IsHexDigit(digits[k])
    ensures HexNumber(zeros + digits) == HexNumber(digits)
  {
    var all := zeros + digits;
    assert forall k :: 0 <= k < |all| ==> IsHexDigit(all[k]) by {
      forall k | 0 <= k < |all| ensures IsHexDigit(all[k]) {
        if k < |zeros| { assert all[k] == '0'; } else { assert all[k] == digits[k - |zeros|]; }
      }
    }
    ValueAfterZeros(zeros, digits, 16);
    HexDigitsRead(all);
    HexDigitsRead(digits);
  }

  /** Printing a number as `$` and its hex digits and reading it back gives
      the number, wrapped to a signed 32-bit value. */
  lemma HexRoundTrip(n: nat)
    requires n < TwoTo32
    ensures ParseIntWithHexSupport(Some("$" + ToDigits(n, 16))) == Success(ToInt32(n))
    ensures ParseIntWithHexSupport(Some("0x" + ToDigits(n, 16))) == Success(ToInt32(n))
  {
    var d := ToDigits(n, 16);
    ValueOfToDigits(n, 16);
    HexDigitsRead(d);
    DollarReadsHex(d);
    PrefixReadsHex(d);
  }

  lemma DollarReadsHex(d: string)
    requires |d| > 0 && !IsSpace(d[|d| - 1])
    ensures ParseIntWithHexSupport(Some("$" + d)) == HexNumber(d)
  {
    var t := "$" + d;
    assert t[1..] == d;
    DollarDispatch(t);
  }

  lemma PrefixReadsHex(d: string)
    requires |d| > 0 && !IsSpace(d[|d| - 1])
    ensures ParseIntWithHexSupport(Some("0x" + d)) == HexNumber(d)
  {
    var t := "0x" + d;
    assert t[2..] == d;
    HexPrefixDispatch(t);
  }

  /** Hex text wider than 32 bits raises the overflow error. */
  lemma HexOverflow(n: nat)
    requires n >= TwoTo32
    ensures ParseIntWithHexSupport(Some("$" + ToDigits(n, 16))) == Failure(OverflowError)
  {
    var d := ToDigits(n, 16);
    ValueOfToDigits(n, 16);
    HexDigitsRead(d);
    DollarReadsHex(d);
  }

  /** The decimal text of a number. */
  function DecimalText(x: int): (s: string)
    ensures |s| >= 1 && !IsSpace(s[0]) && !IsSpace(s[|s| - 1])
  {
    if x < 0 then "-" + ToDigits(-x, 10) else ToDigits(x, 10)
  }

  /** The decimal reader recovers every `int` from its text. */
  lemma DecimalOfText(x: int)
    requires IsInt32(x)
    ensures Decimal(DecimalText(x)) == Some(x)
  {
    var t := DecimalText(x);
    var m: nat := if x < 0 then -x else x;
    var d := ToDigits(m, 10);
    ValueOfToDigits(m, 10);
    TrimOfNonSpaceEnds(t);
    assert Digits(d);
    if x < 0 {
      assert t[1..] == d;
    } else {
      assert IsDecDigit(t[0]);
    }
    assert SignedDecimal(t) == Some(x);
    DecimalOfTrimmed(t);
  }

  lemma DecimalOfTrimmed(t: string)
    requires Trim(t) == t && SignedDecimal(t).Some? && IsInt32(SignedDecimal(t).value)
    ensures Decimal(t) == Some(SignedDecimal(t).value)
  {
  }

  /** Every `int`, printed in decimal, reads back as itself. */
  lemma DecimalRoundTrip(x: int)
    requires IsInt32(x)
    ensures ParseIntWithHexSupport(Some(DecimalText(x))) == Success(x)
  {
    var t := DecimalText(x);
    var m: nat := if x < 0 then -x else x;
    var d := ToDigits(m, 10);
    assert !HasHexPrefix(t) by {
      if x < 0 { assert t[0] == '-'; }
      else if |t| >= 2 { assert IsDecDigit(d[1]); }
    }
    assert t[0] != '$' by {
      if x >= 0 { assert IsDecDigit(d[0]); }
    }
    DecimalOfText(x);
    DecimalDispatch(t);
  }

  /** Malformed hex raises instead of giving -1. */
  lemma DollarAloneIsMalformed()
    ensures ParseIntWithHexSupport(Some("$")) == Failure(FormatError)
  {
    DollarDispatch("$");
    assert "$"[1..] == [];
  }

  /** `0x` followed by text opening with neither white space nor a hex
      digit raises too, `0xG1` for one. */
  lemma BadHexDigitIsMalformed(d: string)
    requires |d| > 0 && !IsHexDigit(d[0]) && !IsSpace(d[0]) && !IsSpace(d[|d| - 1])
    ensures ParseIntWithHexSupport(Some("0x" + d)) == Failure(FormatError)
  {
    PrefixReadsHex(d);
    TrimOfNonSpaceEnds(d);
  }

  /** Text that is no number at all gives -1. */
  lemma WordIsMinusOne()
    ensures ParseIntWithHexSupport(Some("abc")) == Success(-1)
  {
    DecimalDispatch("abc");
    assert Span("abc", IsSpace) == 0;
    assert Span("abc", IsDecDigit) == 0;
  }

  /** `$FFFFFFFF` is the unsigned maximum and reads as -1. */
  lemma AllOnesIsMinusOne()
    ensures ParseIntWithHexSupport(Some("$FFFFFFFF")) == Success(-1)
  {
    var f := "FFFFFFFF";
    AllOnesValue();
    HexDigitsRead(f);
    assert "$FFFFFFFF"[1..] == f;
    DollarDispatch("$FFFFFFFF");
  }

  lemma AllOnesValue()
    ensures Value("FFFFFFFF", 16) == 0xFFFF_FFFF
  {
    AllTopDigits("FFFFFFFF");
    assert Pow(16, 8) == TwoTo32;
  }

  /** A run of `F` digits is one below the next power of 16. */
  lemma {:induction false} AllTopDigits(s: string)
    requires forall k :: 0 <= k < |s| ==> s[k] == 'F'
    ensures Value(s, 16) == Pow(16, |s|) - 1
  {
    if |s| > 0 {
      AllTopDigits(s[..|s| - 1]);
    }
  }
}

=== FILE: mapfile.dfy ===
/** The z88dk map-file symbol table (`Z88dkMapFile`): the symbols in file
    order, the by-name index (the last definition of a name wins) and the
    by-address index (every symbol at an address, in file order), and the
    lookups the write guard uses to name an address. */
module Z88dkMap {
  import opened Wrappers
  import opened NextMem
  import opened MapLine

  // ---------------------------------------------------------------------
  // Reference definitions over the symbol list

  /** `s` is what the pattern makes of one of the lines. */
  ghost predicate FromSomeLine(lines: seq<string>, s: Symbol) {
    exists i :: 0 <= i < |lines| && ParseLine(lines[i]) == Some(s)
  }

  lemma FromShorter(lines: seq<string>, s: Symbol)
    requires |lines| > 0 && FromSomeLine(lines[..|lines| - 1], s)
    ensures FromSomeLine(lines, s)
  {
    var i :| 0 <= i < |lines| - 1 && ParseLine(lines[..|lines| - 1][i]) == Some(s);
    assert lines[..|lines| - 1][i] == lines[i];
  }

  /** The symbols a sequence of lines yields, in order: lines the pattern
      rejects contribute nothing. */
  function Matched(lines: seq<string>): (r: seq<Symbol>)
    ensures |r| <= |lines|
    ensures forall s :: s in r ==> FromSomeLine(lines, s)
    decreases |lines|
  {
    if |lines| == 0 then []
    else
      var init := Matched(lines[..|lines| - 1]);
      var last := lines[|lines| - 1];
      assert forall s :: s in init ==> FromSomeLine(lines, s) by {
        forall s | s in init ensures FromSomeLine(lines, s) {
          FromShorter(lines, s);
        }
      }
      match ParseLine(last)
      case Some(s) =>
        assert FromSomeLine(lines, s) by { assert ParseLine(lines[|lines| - 1]) == Some(s); }
        init + [s]
      case None => init
  }

  /** The values `parse` gives for the lines it accepts, in order. */
  function Collect(lines: seq<string>, parse: string -> Option<Symbol>): seq<Symbol>
    decreases |lines|
  {
    if |lines| == 0 then []
    else
      var init := Collect(lines[..|lines| - 1], parse);
      match parse(lines[|lines| - 1])
      case Some(s) => init + [s]
      case None => init
  }

  /** The positions of the lines `parse` accepts, in increasing order. */
  function Positions(lines: seq<string>, parse: string -> Option<Symbol>): (idx: seq<nat>)
    ensures forall j :: 0 <= j < |idx| ==> idx[j] < |lines| && parse(lines[idx[j]]).Some?
    ensures forall j, k :: 0 <= j < k < |idx| ==> idx[j] < idx[k]
    ensures forall i :: 0 <= i < |lines| && parse(lines[i]).Some? ==> i in idx
    decreases |lines|
  {
    if |lines| == 0 then []
    else
      var n := |lines| - 1;
      var init := Positions(lines[..n], parse);
      assert forall i :: 0 <= i < n ==> lines[..n][i] == lines[i];
      if parse(lines[n]).Some? then init + [n] else init
  }

  /** The collected values are those of the accepted lines, one each, in
      line order. */
  lemma {:induction false} CollectAtPositions(lines: seq<string>, parse: string -> Option<Symbol>)
    ensures |Collect(lines, parse)| == |Positions(lines, parse)|
    ensures forall j :: 0 <= j < |Positions(lines, parse)| ==> parse(lines[Positions(lines, parse)[j]]) == Some(Collect(lines, parse)[j])
    decreases |lines|
  {
    if |lines| > 0 {
      var n := |lines| - 1;
      var init := lines[..n];
      CollectAtPositions(init, parse);
      var idx := Positions(init, parse);
      forall j | 0 <= j < |idx| ensures init[idx[j]] == lines[idx[j]] {
      }
    }
  }

  /** `Matched` is the collection of what the line pattern accepts. */
  lemma {:induction false} MatchedIsCollect(lines: seq<string>)
    ensures Matched(lines) == Collect(lines, ParseLine)
    decreases |lines|
  {
    if |lines| > 0 {
      MatchedIsCollect(lines[..|lines| - 1]);
    }
  }

  /** The symbols are those of the lines the pattern accepts, one each, in
      file order. */
  lemma MatchedFollowsLines(lines: seq<string>)
    ensures |Matched(lines)| == |Positions(lines, ParseLine)|
    ensures forall j :: 0 <= j < |Positions(lines, ParseLine)| ==> ParseLine(lines[Positions(lines, ParseLine)[j]]) == Some(Matched(lines)[j])
  {
    MatchedIsCollect(lines);
    CollectAtPositions(lines, ParseLine);
  }

  lemma MatchedStep(lines: seq<string>, i: int)
    requires 0 <= i < |lines|
    ensures Matched(lines[..i + 1]) == Matched(lines[..i]) + (match ParseLine(lines[i]) case Some(s) => [s] case None => [])
  {
    assert lines[..i + 1][..i] == lines[..i];
  }

  /** Every symbol recorded at `address`, in list order. */
  function AtAddress(syms: seq<Symbol>, address: int): (r: seq<Symbol>)
    ensures forall s :: s in r <==> s in syms && s.address == address
    ensures |r| <= |syms|
  {
    if |syms| == 0 then []
    else
      var last := syms[|syms| - 1];
      AtAddress(syms[..|syms| - 1], address) + (if last.address == address then [last] else [])
  }

  lemma NoneAtAddress(syms: seq<Symbol>, address: int)
    requires forall j :: 0 <= j < |syms| ==> syms[j].address != address
    ensures AtAddress(syms, address) == []
  {
  }

  /** `i` is the position of the first symbol recorded at its address. */
  predicate FirstAtItsAddress(syms: seq<Symbol>, i: int) {
    0 <= i < |syms| && forall j :: 0 <= j < i ==> syms[j].address != syms[i].address
  }

  /** The head of `AtAddress` is the first symbol at that address. */
  lemma {:induction false} AtAddressHead(syms: seq<Symbol>, i: int)
    requires FirstAtItsAddress(syms, i)
    ensures AtAddress(syms, syms[i].address) != []
    ensures AtAddress(syms, syms[i].address)[0] == syms[i]
    decreases |syms|
  {
    var init := syms[..|syms| - 1];
    if i < |syms| - 1 {
      assert init[i] == syms[i];
      assert FirstAtItsAddress(init, i) by {
        forall j | 0 <= j < i ensures init[j].address != init[i].address {
          assert init[j] == syms[j];
        }
      }
      AtAddressHead(init, i);
    } else {
      forall j | 0 <= j < |init| ensures init[j].address != syms[i].address {
        assert init[j] == syms[j];
      }
      NoneAtAddress(init, syms[i].address);
    }
  }

  /** The last symbol named `name`: a later definition replaces an earlier
      one in the by-name dictionary. */
  function LastNamed(syms: seq<Symbol>, name: string): (r: Option<Symbol>)
    ensures r.None? <==> forall s :: s in syms ==> s.name != name
    ensures r.Some? ==> r.value in syms && r.value.name == name
  {
    if |syms| == 0 then None
    else if syms[|syms| - 1].name == name then Some(syms[|syms| - 1])
    else
      var r := LastNamed(syms[..|syms| - 1], name);
      assert forall s :: s in syms ==> s in syms[..|syms| - 1] || s == syms[|syms| - 1] by {
        forall s | s in syms ensures s in syms[..|syms| - 1] || s == syms[|syms| - 1] {
          var j :| 0 <= j < |syms| && syms[j] == s;
          if j < |syms| - 1 { assert syms[..|syms| - 1][j] == s; }
        }
      }
      r
  }

  /** `i` holds the last symbol named `name`. */
  predicate LastWithName(syms: seq<Symbol>, name: string, i: int) {
    0 <= i < |syms| && syms[i].name == name && forall j :: i < j < |syms| ==> syms[j].name != name
  }

  /** `LastNamed` returns exactly the symbol at the last position with that
      name. */
  lemma {:induction false} LastNamedIsLast(syms: seq<Symbol>, name: string, i: int)
    requires LastWithName(syms, name, i)
    ensures LastNamed(syms, name) == Some(syms[i])
    decreases |syms|
  {
    if i < |syms| - 1 {
      var init := syms[..|syms| - 1];
      assert init[i] == syms[i];
      assert LastWithName(init, name, i);
      LastNamedIsLast(init, name, i);
    }
  }

  // ---------------------------------------------------------------------
  // The table and its indices

  datatype MapFile = MapFile(symbols: seq<Symbol>, byName: map<string, Symbol>, byAddress: map<int, seq<Symbol>>)

  /** The dictionaries agree with the symbol list: the name index holds the
      last definition of each name, the address index every symbol at the
      address in list order, and no address maps to an empty list. */
  ghost predicate Indexed(t: MapFile) {
    NameIndexed(t) && AddressIndexed(t)
  }

  ghost predicate NameIndexed(t: MapFile) {
    forall n :: LastNamed(t.symbols, n) == (if n in t.byName then Some(t.byName[n]) else None)
  }

  ghost predicate AddressIndexed(t: MapFile) {
    && (forall a :: AtAddress(t.symbols, a) == (if a in t.byAddress then t.byAddress[a] else []))
    && (forall a :: a in t.byAddress ==> t.byAddress[a] != [])
  }

  const Empty := MapFile([], map[], map[])

  /** Adding one parsed symbol: append it, overwrite its name entry and
      extend (or create) the list at its address. */
  function Add(t: MapFile, s: Symbol): (r: MapFile)
    requires Indexed(t)
    ensures Indexed(r)
    ensures r.symbols == t.symbols + [s]
  {
    var list := if s.address in t.byAddress then t.byAddress[s.address] else [];
    var r := MapFile(t.symbols + [s], t.byName[s.name := s], t.byAddress[s.address := list + [s]]);
    AddKeepsNames(t, s, r);
    AddKeepsAddresses(t, s, list, r);
    r
  }

  lemma AddKeepsNames(t: MapFile, s: Symbol, r: MapFile)
    requires NameIndexed(t)
    requires r.symbols == t.symbols + [s] && r.byName == t.byName[s.name := s]
    ensures NameIndexed(r)
  {
    forall n ensures LastNamed(r.symbols, n) == (if n in r.byName then Some(r.byName[n]) else None) {
      LastNamedAppend(t.symbols, s, n);
    }
  }

  lemma AddKeepsAddresses(t: MapFile, s: Symbol, list: seq<Symbol>, r: MapFile)
    requires AddressIndexed(t)
    requires list == if s.address in t.byAddress then t.byAddress[s.address] else []
    requires r.symbols == t.symbols + [s] && r.byAddress == t.byAddress[s.address := list + [s]]
    ensures AddressIndexed(r)
  {
    forall a ensures AtAddress(r.symbols, a) == (if a in r.byAddress then r.byAddress[a] else []) {
      AtAddressAppend(t.symbols, s, a);
    }
  }

  lemma LastNamedAppend(syms: seq<Symbol>, s: Symbol, name: string)
    ensures LastNamed(syms + [s], name) == if s.name == name then Some(s) else LastNamed(syms, name)
  {
    assert (syms + [s])[..|syms|] == syms;
  }

  lemma AtAddressAppend(syms: seq<Symbol>, s: Symbol, address: int)
    ensures AtAddress(syms + [s], address) == AtAddress(syms, address) + (if s.address == address then [s] else [])
  {
    assert (syms + [s])[..|syms|] == syms;
  }

  /** One line of the file: its symbol is added when the pattern matches. */
  function AddLine(t: MapFile, line: string): (r: MapFile)
    requires Indexed(t)
    ensures Indexed(r)
    ensures r.symbols == t.symbols + (match ParseLine(line) case Some(s) => [s] case None => [])
  {
    match ParseLine(line)
    case Some(s) => Add(t, s)
    case None => t
  }

  /** The table after line `i`, given the table after the lines before it. */
  function ParseStep(lines: seq<string>, i: int, t: MapFile): (r: MapFile)
    requires 0 <= i < |lines| && Indexed(t) && t.symbols == Matched(lines[..i])
    ensures Indexed(r) && r.symbols == Matched(lines[..i + 1])
  {
    MatchedStep(lines, i);
    AddLine(t, lines[i])
  }

  datatype LoadError = MapFileNotFound

  /** `Parse`: a missing file is an error (the source throws); otherwise
      every line the pattern accepts becomes a symbol, in order, and both
      dictionaries are kept in step. Lines the pattern rejects are skipped
      (the source prints a warning for them). */
  method Parse(file: Option<seq<string>>) returns (r: Result<MapFile, LoadError>)
    ensures file.None? <==> r.Failure?
    ensures r.Success? ==> Indexed(r.value) && r.value.symbols == Matched(file.value)
  {
    if file.None? {
      return Failure(MapFileNotFound);
    }
    var lines := file.value;
    var t := Empty;
    var i := 0;
    while i < |lines|
      invariant 0 <= i <= |lines|
      invariant Indexed(t)
      invariant t.symbols == Matched(lines[..i])
    {
      t := ParseStep(lines, i, t);
      i := i + 1;
    }
    assert lines[..i] == lines;
    return Success(t);
  }

  // ---------------------------------------------------------------------
  // Queries

  /** `GetSymbolByName`: the last definition of the name, if any. */
  function GetSymbolByName(t: MapFile, name: string): (r: Option<Symbol>)
    requires Indexed(t)
    ensures r == LastNamed(t.symbols, name)
    ensures r.None? <==> forall s :: s in t.symbols ==> s.name != name
  {
    if name in t.byName then Some(t.byName[name]) else None
  }

  /** `GetSymbolsByAddress`: every symbol at the address, in file order;
      empty when there is none. */
  function GetSymbolsByAddress(t: MapFile, address: int): (r: seq<Symbol>)
    requires Indexed(t)
    ensures r == AtAddress(t.symbols, address)
    ensures forall s :: s in r <==> s in t.symbols && s.address == address
  {
    if address in t.byAddress then t.byAddress[address] else []
  }

  /** The position `FindClosestSymbol` picks: among the symbols at or below
      `x`, one with the greatest address, and among those the first in list
      order (LINQ's `OrderByDescending` is a stable sort). */
  function ClosestIndex(syms: seq<Symbol>, x: int): (r: Option<nat>)
    ensures r.None? <==> forall j :: 0 <= j < |syms| ==> syms[j].address > x
    ensures r.Some? ==> r.value < |syms| && syms[r.value].address <= x
    ensures r.Some? ==> forall j :: 0 <= j < |syms| && syms[j].address <= x ==> syms[j].address <= syms[r.value].address
    ensures r.Some? ==> FirstAtItsAddress(syms, r.value)
  {
    if |syms| == 0 then None
    else
      var init := syms[..|syms| - 1];
      var prev := ClosestIndex(init, x);
      assert forall j :: 0 <= j < |init| ==> init[j] == syms[j];
      var last := syms[|syms| - 1];
      if last.address <= x && (prev.None? || syms[prev.value].address < last.address) then Some(|syms| - 1)
      else prev
  }

  /** `FindClosestSymbol`. */
  function FindClosestSymbol(t: MapFile, x: int): (r: Option<Symbol>)
    ensures r.None? <==> forall s :: s in t.symbols ==> s.address > x
    ensures r.Some? ==> r.value in t.symbols && r.value.address <= x
    ensures r.Some? ==> forall s :: s in t.symbols && s.address <= x ==> s.address <= r.value.address
    ensures r.Some? ==> r.value == AtAddress(t.symbols, r.value.address)[0]
  {
    match ClosestIndex(t.symbols, x)
    case None => None
    case Some(i) =>
      AtAddressHead(t.symbols, i);
      Some(t.symbols[i])
  }

  /** `ResolvedAddress`: the address asked about, its translation, and the
      symbol that names it with the distance past that symbol. */
  datatype Resolved = Resolved(logical: int, physical: int, symbol: Option<Symbol>, offset: int)

  /** A symbol that could name `physical`: at or below it, in its bank. */
  predicate Covers(s: Symbol, physical: int) {
    s.address <= physical && Bank(s.address) == Bank(physical)
  }

  lemma BankBetween(a: int, b: int, c: int)
    requires a <= b <= c && Bank(a) == Bank(c)
    ensures Bank(b) == Bank(a)
  {
    assert Bank(a) * BankSize <= a;
    assert c < (Bank(c) + 1) * BankSize;
  }

  /** `LookupSymbol`: translate the address; a symbol exactly there names it
      with offset 0 (the first in file order); otherwise the closest symbol
      below names it when it lies in the same 64 KiB bank. The bank test on
      the overall closest symbol amounts to choosing the closest symbol
      within the bank. */
  function LookupSymbol(t: MapFile, logical: int, pages: PageMap): (r: Resolved)
    requires Indexed(t)
    ensures r.logical == logical && r.physical == Translate(pages, logical)
    ensures AtAddress(t.symbols, r.physical) != [] ==> r.symbol == Some(AtAddress(t.symbols, r.physical)[0]) && r.offset == 0
    ensures r.symbol.None? ==> r.offset == 0
    ensures r.symbol.Some? ==> r.symbol.value in t.symbols && Covers(r.symbol.value, r.physical)
    ensures r.symbol.Some? ==> r.offset == r.physical - r.symbol.value.address
    ensures r.symbol.Some? ==> forall s :: s in t.symbols && Covers(s, r.physical) ==> s.address <= r.symbol.value.address
    ensures r.symbol.Some? ==> r.symbol.value == AtAddress(t.symbols, r.symbol.value.address)[0]
    ensures r.symbol.None? <==> forall s :: s in t.symbols ==> !Covers(s, r.physical)
    ensures r.offset > 0 <==> r.symbol.Some? && AtAddress(t.symbols, r.physical) == []
  {
    var physical := Translate(pages, logical);
    var exact := GetSymbolsByAddress(t, physical);
    if |exact| > 0 then
      ExactHit(t, physical);
      Resolved(logical, physical, Some(exact[0]), 0)
    else
      match FindClosestSymbol(t, physical)
      case Some(c) =>
        if Bank(physical) == Bank(c.address) then
          ClosestInBank(t, physical, c);
          Resolved(logical, physical, Some(c), physical - c.address)
        else
          ClosestOutOfBank(t, physical, c);
          Resolved(logical, physical, None, 0)
      case None =>
        Resolved(logical, physical, None, 0)
  }

  /** A symbol exactly at the address covers it, and no covering symbol
      lies above it. */
  lemma ExactHit(t: MapFile, physical: int)
    requires AtAddress(t.symbols, physical) != []
    ensures AtAddress(t.symbols, physical)[0] in t.symbols
    ensures Covers(AtAddress(t.symbols, physical)[0], physical)
    ensures forall s :: s in t.symbols && Covers(s, physical) ==> s.address <= physical
  {
    var exact := AtAddress(t.symbols, physical);
    assert exact[0] in exact;
  }

  /** With no exact hit, the closest symbol in the same bank lies strictly
      below the address and above every other covering symbol. */
  lemma ClosestInBank(t: MapFile, physical: int, c: Symbol)
    requires AtAddress(t.symbols, physical) == []
    requires FindClosestSymbol(t, physical) == Some(c) && Bank(physical) == Bank(c.address)
    ensures c in t.symbols && Covers(c, physical) && c.address < physical
    ensures forall s :: s in t.symbols && Covers(s, physical) ==> s.address <= c.address
  {
  }

  /** When the closest symbol lies in another bank, nothing covers the
      address: any covering symbol would pull the closest one into the
      bank. */
  lemma ClosestOutOfBank(t: MapFile, physical: int, c: Symbol)
    requires FindClosestSymbol(t, physical) == Some(c) && Bank(physical) != Bank(c.address)
    ensures forall s :: s in t.symbols ==> !Covers(s, physical)
  {
    forall s | s in t.symbols && Covers(s, physical) ensures false {
      BankBetween(s.address, c.address, physical);
    }
  }

  // ---------------------------------------------------------------------
  // Round trips

  /** A symbol with each table symbol's name is found by that name (the
      last definition, see `UniqueNameIsFound` for a name defined once); the
      symbol is among those at its address; and a lookup that translates
      onto it finds a symbol at that address with offset 0 (the first one
      there). */
  lemma {:induction false} SymbolsAreFound(t: MapFile, i: int, logical: int, pages: PageMap)
    requires Indexed(t) && 0 <= i < |t.symbols|
    requires Translate(pages, logical) == t.symbols[i].address
    ensures GetSymbolByName(t, t.symbols[i].name).Some?
    ensures GetSymbolByName(t, t.symbols[i].name).value.name == t.symbols[i].name
    ensures t.symbols[i] in GetSymbolsByAddress(t, t.symbols[i].address)
    ensures LookupSymbol(t, logical, pages).symbol.Some?
    ensures LookupSymbol(t, logical, pages).symbol.value.address == t.symbols[i].address
    ensures LookupSymbol(t, logical, pages).offset == 0
  {
    var s := t.symbols[i];
    assert s in t.symbols;
    assert s in AtAddress(t.symbols, s.address);
  }

  /** A name defined once is found as exactly that symbol. */
  lemma UniqueNameIsFound(t: MapFile, i: int)
    requires Indexed(t) && 0 <= i < |t.symbols|
    requires forall j :: 0 <= j < |t.symbols| && j != i ==> t.symbols[j].name != t.symbols[i].name
    ensures GetSymbolByName(t, t.symbols[i].name) == Some(t.symbols[i])
  {
    LastNamedIsLast(t.symbols, t.symbols[i].name, i);
  }

  const FrameCounter := Symbol("_frame_counter", 0xADFA, "data_user", "ula_interrupt.asm:28")

  /** The `_frame_counter` line on its own yields exactly its symbol. */
  lemma FrameCounterMatched()
    ensures Matched([FrameCounterText]) == [FrameCounter]
  {
    FrameCounterLine();
    MatchedSingle(FrameCounterText);
  }

  /** One line yields its own symbol, or nothing. */
  lemma MatchedSingle(line: string)
    ensures ParseLine(line).Some? ==> Matched([line]) == [ParseLine(line).value]
    ensures ParseLine(line).None? ==> Matched([line]) == []
  {
    assert [line][..0] == [];
  }

  /** A table parsed from the single `_frame_counter` line finds the symbol
      by its name and by its address. */
  lemma FrameCounterTable(t: MapFile)
    requires Indexed(t) && t.symbols == Matched([FrameCounterText])
    ensures GetSymbolByName(t, "_frame_counter") == Some(FrameCounter)
    ensures GetSymbolsByAddress(t, 0xADFA) == [FrameCounter]
  {
    FrameCounterMatched();
    LastNamedIsLast(t.symbols, "_frame_counter", 0);
    assert AtAddress(t.symbols[..0], 0xADFA) == [];
  }
}

=== FILE: mapline.dfy ===
/** One line of a z88dk map file, recognised the way the source's regular
    expression
        ^\s*(\S*)\s*=\s*\$([0-9A-Fa-f]+)\s*;\s*[^,]*,\s*[^,]*,\s*[^,]*,\s*[^,]*,\s*(\w*)\s*,\s*(.*)$
    matches it: leading whitespace, a name, `= $`, hex digits, `;`, four
    comma-terminated fields, a word-character segment, a comma and the
    source reference. Everything after the name is matched greedily with no
    alternatives, so it is a straight scan; the name is the longest run of
    non-space characters after which the rest still matches, which is the
    choice the regular expression's backtracking makes. */
module MapLine {
  import opened Wrappers
  import opened Text

  /** A map-file symbol: `Source` is the trimmed text after the segment. */
  datatype Symbol = Symbol(name: string, address: int, segment: string, source: string)

  /** The sentinel address stored for over-long hex text. */
  const InvalidAddress := -1

  /** The three groups captured after the name. */
  datatype Captures = Captures(hex: string, segment: string, source: string)

  function Expect(s: string, c: char): Option<string> {
    if |s| > 0 && s[0] == c then Some(s[1..]) else None
  }

  /** `[^,]*,`: everything up to and including the next comma. */
  function Field(s: string): Option<string> {
    var n := Span(s, IsNotComma);
    if n < |s| then Some(s[n + 1..]) else None
  }

  /** `\s*=\s*\$([0-9A-Fa-f]+)\s*;`: the address digits and the text after
      the semicolon. */
  function AddressPart(s: string): (r: Option<(string, string)>)
    ensures r.Some? ==> |r.value.0| > 0 && forall k :: 0 <= k < |r.value.0| ==> IsHexDigit(r.value.0[k])
    ensures r.Some? ==> '=' in s && '$' in s && ';' in s
  {
    var afterEq :- Expect(SkipSpace(s), '=');
    var afterDollar :- Expect(SkipSpace(afterEq), '$');
    var n := Span(afterDollar, IsHexDigit);
    if n == 0 then None else
    var afterSemi :- Expect(SkipSpace(afterDollar[n..]), ';');
    AddressMarks(s, afterEq, afterDollar, n);
    Some((afterDollar[..n], afterSemi))
  }

  /** Each mark the address part consumed lies in the text it scanned. */
  lemma AddressMarks(s: string, afterEq: string, afterDollar: string, n: nat)
    requires Expect(SkipSpace(s), '=') == Some(afterEq)
    requires Expect(SkipSpace(afterEq), '$') == Some(afterDollar)
    requires n <= |afterDollar| && Expect(SkipSpace(afterDollar[n..]), ';').Some?
    ensures '=' in s && '$' in s && ';' in s
  {
    var i := Span(s, IsSpace);
    assert s[i] == '=';
    assert afterEq == s[i + 1..];
    var j := Span(afterEq, IsSpace);
    assert afterEq[j] == '$';
    InSuffix('$', s, i + 1);
    assert afterDollar == afterEq[j + 1..];
    var k := Span(afterDollar[n..], IsSpace);
    assert afterDollar[n..][k] == ';';
    InSuffix(';', afterDollar, n);
    InSuffix(';', afterEq, j + 1);
    InSuffix(';', s, i + 1);
  }

  /** `[^,]*,` four times. */
  function FourFields(s: string): Option<string> {
    var f1 :- Field(s);
    var f2 :- Field(f1);
    var f3 :- Field(f2);
    Field(f3)
  }

  /** `\s*(\w*)\s*,\s*(.*)$`: the segment and the trimmed source. */
  function SegmentPart(s: string): (r: Option<(string, string)>)
    ensures r.Some? ==> forall k :: 0 <= k < |r.value.0| ==> IsWordChar(r.value.0[k])
    ensures r.Some? ==> |r.value.1| > 0 ==> !IsSpace(r.value.1[0]) && !IsSpace(r.value.1[|r.value.1| - 1])
  {
    var seg := SkipSpace(s);
    var w := Span(seg, IsWordChar);
    var source :- Expect(SkipSpace(seg[w..]), ',');
    Some((seg[..w], Trim(source)))
  }

  /** What the character classes of the pattern guarantee of the groups. */
  predicate Shaped(c: Captures) {
    && |c.hex| > 0 && (forall k :: 0 <= k < |c.hex| ==> IsHexDigit(c.hex[k]))
    && (forall k :: 0 <= k < |c.segment| ==> IsWordChar(c.segment[k]))
    && (|c.source| > 0 ==> !IsSpace(c.source[0]) && !IsSpace(c.source[|c.source| - 1]))
  }

  /** The part of the pattern after the name group, anchored at the start
      of `s` and running to the end of the line. */
  function Tail(s: string): (r: Option<Captures>)
    ensures r.Some? ==> Shaped(r.value)
    ensures r.Some? ==> '=' in s && '$' in s && ';' in s
  {
    var (hex, afterSemi) :- AddressPart(s);
    var afterFields :- FourFields(afterSemi);
    var (segment, source) :- SegmentPart(afterFields);
    Some(Captures(hex, segment, source))
  }

  /** The greatest index holding a match: the regular expression tries the
      name lengths from the longest down and keeps the first that works. */
  function LastMatch<T>(tails: seq<Option<T>>): (r: Option<nat>)
    ensures r.Some? ==> r.value < |tails| && tails[r.value].Some?
    ensures r.Some? ==> forall k :: r.value < k < |tails| ==> tails[k].None?
    ensures r.None? ==> forall k :: 0 <= k < |tails| ==> tails[k].None?
  {
    if |tails| == 0 then None
    else if tails[|tails| - 1].Some? then Some(|tails| - 1)
    else LastMatch(tails[..|tails| - 1])
  }

  /** `addrStr.Length > 7 ? -1 : Convert.ToInt32(addrStr, 16)`. */
  function HexAddress(hex: string): (a: int)
    requires forall k :: 0 <= k < |hex| ==> IsHexDigit(hex[k])
    ensures |hex| > 7 <==> a == InvalidAddress
    ensures |hex| <= 7 ==> 0 <= a < 0x1000_0000 && a == Value(hex, 16)
  {
    if |hex| > 7 then InvalidAddress
    else
      ValueBound(hex, 16);
      assert Pow(16, |hex|) <= Pow(16, 7) by { PowMonotone(16, |hex|, 7); }
      Value(hex, 16)
  }

  lemma {:induction false} PowMonotone(b: nat, i: nat, j: nat)
    requires 1 <= b && i <= j
    ensures Pow(b, i) <= Pow(b, j)
    decreases j
  {
    if i < j {
      PowMonotone(b, i, j - 1);
      MulLeq(1, b, Pow(b, j - 1));
    }
  }

  /** The tail match after each candidate name length `0..run`. */
  function Tails(body: string, run: nat): (r: seq<Option<Captures>>)
    requires run <= |body|
    ensures |r| == run + 1
    ensures forall k :: 0 <= k <= run && r[k].Some? ==> Shaped(r[k].value) && '=' in body[k..] && '$' in body[k..] && ';' in body[k..]
  {
    seq(run + 1, k requires 0 <= k <= run => Tail(body[k..]))
  }

  lemma TailsAt(body: string, run: nat, k: nat)
    requires k <= run <= |body|
    ensures Tails(body, run)[k] == Tail(body[k..])
  {
  }

  /** The record built from the name and the captured groups. */
  function SymbolOf(name: string, c: Captures): (r: Symbol)
    requires Shaped(c)
    ensures r.name == name && r.source == c.source
    ensures r.address == InvalidAddress || 0 <= r.address < 0x1000_0000
    ensures IsLowerText(r.segment) && forall k :: 0 <= k < |r.segment| ==> IsWordChar(r.segment[k])
  {
    LowerKeepsWordChars(c.segment);
    Symbol(name, HexAddress(c.hex), Lower(c.segment), c.source)
  }

  /** The match on a line whose leading whitespace is gone: the name is the
      longest prefix of the non-space run after which the rest matches. */
  function ParseBody(body: string): (r: Option<Symbol>)
    ensures r.Some? ==> forall k :: 0 <= k < |r.value.name| ==> !IsSpace(r.value.name[k])
    ensures r.Some? ==> forall k :: 0 <= k < |r.value.segment| ==> IsWordChar(r.value.segment[k])
    ensures r.Some? ==> |r.value.source| > 0 ==> !IsSpace(r.value.source[0]) && !IsSpace(r.value.source[|r.value.source| - 1])
    ensures r.Some? ==> r.value.address == InvalidAddress || 0 <= r.value.address < 0x1000_0000
    ensures r.Some? ==> IsLowerText(r.value.segment)
    ensures r.Some? ==> '=' in body && '$' in body && ';' in body
  {
    var run := Span(body, IsNonSpace);
    var tails := Tails(body, run);
    match LastMatch(tails)
    case None => None
    case Some(k) =>
      var c := tails[k].value;
      InSuffix('=', body, k);
      InSuffix('$', body, k);
      InSuffix(';', body, k);
      RunHasNoSpace(body, k);
      Some(SymbolOf(body[..k], c))
  }

  /** A prefix of the leading non-space run holds no white space. */
  lemma RunHasNoSpace(body: string, k: nat)
    requires k <= Span(body, IsNonSpace)
    ensures forall i :: 0 <= i < k ==> !IsSpace(body[..k][i])
  {
    forall i | 0 <= i < k ensures !IsSpace(body[..k][i]) {
      assert IsNonSpace(body[i]);
    }
  }

  /** One line of the map file; `None` for a line the pattern rejects. A
      matching line gives a name without whitespace, the hex value of the
      address or the sentinel, a lower-cased word segment and a trimmed
      source. */
  function ParseLine(line: string): (r: Option<Symbol>)
    ensures r.Some? ==> forall k :: 0 <= k < |r.value.name| ==> !IsSpace(r.value.name[k])
    ensures r.Some? ==> r.value.address == InvalidAddress || 0 <= r.value.address < 0x1000_0000
    ensures r.Some? ==> IsLowerText(r.value.segment) && forall k :: 0 <= k < |r.value.segment| ==> IsWordChar(r.value.segment[k])
    ensures r.Some? ==> |r.value.source| > 0 ==> !IsSpace(r.value.source[0]) && !IsSpace(r.value.source[|r.value.source| - 1])
    ensures r.Some? ==> '=' in line && '$' in line && ';' in line
  {
    var start := Span(line, IsSpace);
    var r := ParseBody(line[start..]);
    if r.Some? then
      InSuffix('=', line, start);
      InSuffix('$', line, start);
      InSuffix(';', line, start);
      r
    else r
  }

  // ---------------------------------------------------------------------
  // The line a symbol comes from

  /** The pieces of a map-file line: whitespace gaps, the name, the hex
      digits, four free fields, the segment and the source. */
  datatype LineParts = LineParts(
    lead: string, name: string, nameGap: string, eqGap: string, hex: string, semiGap: string,
    f1: string, f2: string, f3: string, f4: string,
    segGap: string, segment: string, commaGap: string, source: string)

  /** The pieces as the pattern admits them: white-space gaps, a name
      without white space (`[\S]*`, possibly empty), at least one hex digit,
      comma-free fields and a word-character segment. */
  predicate Loose(p: LineParts) {
    && AllSpace(p.lead) && AllSpace(p.nameGap) && AllSpace(p.eqGap) && AllSpace(p.semiGap)
    && AllSpace(p.segGap) && AllSpace(p.commaGap)
    && (forall k :: 0 <= k < |p.name| ==> !IsSpace(p.name[k]))
    && |p.hex| > 0 && (forall k :: 0 <= k < |p.hex| ==> IsHexDigit(p.hex[k]))
    && ',' !in p.f1 && ',' !in p.f2 && ',' !in p.f3 && ',' !in p.f4
    && (forall k :: 0 <= k < |p.segment| ==> IsWordChar(p.segment[k]))
  }

  /** Admissible pieces with a non-empty name and a non-empty gap after it:
      without the gap the name could run on into the `=`. */
  predicate WellFormed(p: LineParts) {
    Loose(p) && |p.name| > 0 && |p.nameGap| > 0
  }

  function FieldsText(p: LineParts): string {
    p.f1 + ("," + (p.f2 + ("," + (p.f3 + ("," + (p.f4 + ("," + SegmentText(p))))))))
  }

  function SegmentText(p: LineParts): string {
    p.segGap + (p.segment + (p.commaGap + ("," + p.source)))
  }

  function AfterName(p: LineParts): string {
    p.nameGap + ("=" + (p.eqGap + ("$" + (p.hex + (p.semiGap + (";" + FieldsText(p)))))))
  }

  function LineText(p: LineParts): string {
    p.lead + (p.name + AfterName(p))
  }

  lemma FieldStep(f: string, rest: string)
    requires ',' !in f
    ensures Field(f + ("," + rest)) == Some(rest)
  {
    SpanOverRun(f, "," + rest, IsNotComma);
    assert (f + ("," + rest))[|f| + 1..] == rest;
  }

  lemma SegmentPartOfParts(p: LineParts)
    requires WellFormed(p)
    ensures SegmentPart(SegmentText(p)) == Some((p.segment, Trim(p.source)))
  {
    if |p.segment| > 0 {
      NamedSegmentPart(p);
    } else {
      EmptySegmentPart(p);
    }
  }

  lemma NamedSegmentPart(p: LineParts)
    requires WellFormed(p) && |p.segment| > 0
    ensures SegmentPart(SegmentText(p)) == Some((p.segment, Trim(p.source)))
  {
    var afterSeg := p.commaGap + ("," + p.source);
    SkipSpaceOverGap(p.commaGap, "," + p.source);
    SkipSpaceOverGap(p.segGap, p.segment + afterSeg);
    SpanOverRun(p.segment, afterSeg, IsWordChar);
    assert (p.segment + afterSeg)[..|p.segment|] == p.segment;
  }

  lemma EmptySegmentPart(p: LineParts)
    requires WellFormed(p) && |p.segment| == 0
    ensures SegmentPart(SegmentText(p)) == Some((p.segment, Trim(p.source)))
  {
    var rest := "," + p.source;
    assert SegmentText(p) == (p.segGap + p.commaGap) + rest;
    SkipSpaceOverGap(p.segGap + p.commaGap, rest);
    SpanOverRun([], rest, IsWordChar);
    assert [] + rest == rest;
    assert rest[0..] == rest;
    SkipSpaceOverGap([], rest);
    assert Expect(rest, ',') == Some(p.source);
  }

  lemma FourFieldsOfParts(p: LineParts)
    requires WellFormed(p)
    ensures FourFields(FieldsText(p)) == Some(SegmentText(p))
  {
    var s6 := p.f4 + ("," + SegmentText(p));
    var s5 := p.f3 + ("," + s6);
    var s4 := p.f2 + ("," + s5);
    FieldStep(p.f1, s4);
    FieldStep(p.f2, s5);
    FieldStep(p.f3, s6);
    FieldStep(p.f4, SegmentText(p));
  }

  lemma AddressPartOfParts(p: LineParts)
    requires WellFormed(p)
    ensures AddressPart(AfterName(p)) == Some((p.hex, FieldsText(p)))
  {
    var fields := FieldsText(p);
    var afterHex := p.semiGap + (";" + fields);
    var afterDollar := p.hex + afterHex;
    var afterEq := p.eqGap + ("$" + afterDollar);
    SkipSpaceOverGap(p.nameGap, "=" + afterEq);
    SkipSpaceOverGap(p.eqGap, "$" + afterDollar);
    SpanOverRun(p.hex, afterHex, IsHexDigit);
    assert afterDollar[..|p.hex|] == p.hex;
    SkipSpaceOverGap(p.semiGap, ";" + fields);
  }

  lemma TailOfParts(p: LineParts)
    requires WellFormed(p)
    ensures Tail(AfterName(p)) == Some(Captures(p.hex, p.segment, Trim(p.source)))
  {
    AddressPartOfParts(p);
    FourFieldsOfParts(p);
    SegmentPartOfParts(p);
  }

  /** A well-formed line parses to the symbol its pieces spell out. */
  lemma {:induction false} ParseLineOfParts(p: LineParts)
    requires WellFormed(p)
    ensures ParseLine(LineText(p)) == Some(Symbol(p.name, HexAddress(p.hex), Lower(p.segment), Trim(p.source)))
  {
    var rest := AfterName(p);
    var body := p.name + rest;
    SkipSpaceOverGap(p.lead, body);
    SpanOverRun(p.name, rest, IsNonSpace);
    assert body[..|p.name|] == p.name;
    TailOfParts(p);
    ParseLineWithFullRun(LineText(p), Captures(p.hex, p.segment, Trim(p.source)));
  }

  /** When the tail matches right after the whole non-space run, that run
      is the name. */
  lemma ParseLineWithFullRun(line: string, c: Captures)
    requires var body := SkipSpace(line); Tail(body[Span(body, IsNonSpace)..]) == Some(c)
    ensures var body := SkipSpace(line); var run := Span(body, IsNonSpace);
            ParseLine(line) == Some(Symbol(body[..run], HexAddress(c.hex), Lower(c.segment), c.source))
  {
    var body := SkipSpace(line);
    var run := Span(body, IsNonSpace);
    var tails := Tails(body, run);
    TailsAt(body, run, run);
    assert tails[run] == Some(c);
    assert LastMatch(tails) == Some(run);
  }

  // ---------------------------------------------------------------------
  // Every accepted line is made of admissible pieces

  lemma ExpectSplit(s: string, c: char, rest: string)
    requires Expect(s, c) == Some(rest)
    ensures s == [c] + rest
  {
  }

  /** White space, the character `c`, then the rest. */
  lemma GapThen(s: string, c: char, rest: string) returns (gap: string)
    requires Expect(SkipSpace(s), c) == Some(rest)
    ensures AllSpace(gap) && s == gap + ([c] + rest)
  {
    SkipSpaceSplit(s);
    gap := s[..Span(s, IsSpace)];
    ExpectSplit(SkipSpace(s), c, rest);
  }

  lemma AddressPartSound(s: string, hex: string, afterSemi: string) returns (nameGap: string, eqGap: string, semiGap: string)
    requires AddressPart(s) == Some((hex, afterSemi))
    ensures AllSpace(nameGap) && AllSpace(eqGap) && AllSpace(semiGap)
    ensures s == nameGap + ("=" + (eqGap + ("$" + (hex + (semiGap + (";" + afterSemi))))))
  {
    var afterEq := Expect(SkipSpace(s), '=').value;
    var afterDollar := Expect(SkipSpace(afterEq), '$').value;
    var n := Span(afterDollar, IsHexDigit);
    nameGap, eqGap, semiGap := AddressStepsSound(s, afterEq, afterDollar, n, afterSemi);
  }

  /** The address part one `Expect` at a time. */
  lemma AddressStepsSound(s: string, afterEq: string, afterDollar: string, n: nat, afterSemi: string)
    returns (nameGap: string, eqGap: string, semiGap: string)
    requires Expect(SkipSpace(s), '=') == Some(afterEq)
    requires Expect(SkipSpace(afterEq), '$') == Some(afterDollar)
    requires n <= |afterDollar| && Expect(SkipSpace(afterDollar[n..]), ';') == Some(afterSemi)
    ensures AllSpace(nameGap) && AllSpace(eqGap) && AllSpace(semiGap)
    ensures s == nameGap + ("=" + (eqGap + ("$" + (afterDollar[..n] + (semiGap + (";" + afterSemi))))))
  {
    nameGap := GapThen(s, '=', afterEq);
    eqGap := GapThen(afterEq, '$', afterDollar);
    semiGap := GapThen(afterDollar[n..], ';', afterSemi);
    PrefixThenRest(afterDollar, n);
    AddressGlue(s, afterEq, afterDollar, afterDollar[n..], nameGap, eqGap, afterDollar[..n], semiGap, afterSemi);
  }

  lemma PrefixThenRest(s: string, n: nat)
    requires n <= |s|
    ensures s == s[..n] + s[n..]
  {
  }

  /** Substituting each piece of the address part into the one before it. */
  lemma AddressGlue(s: string, afterEq: string, afterDollar: string, tail: string,
                    nameGap: string, eqGap: string, hex: string, semiGap: string, afterSemi: string)
    requires s == nameGap + ("=" + afterEq)
    requires afterEq == eqGap + ("$" + afterDollar)
    requires afterDollar == hex + tail
    requires tail == semiGap + (";" + afterSemi)
    ensures s == nameGap + ("=" + (eqGap + ("$" + (hex + (semiGap + (";" + afterSemi))))))
  {
  }

  lemma FieldSound(s: string, rest: string) returns (f: string)
    requires Field(s) == Some(rest)
    ensures ',' !in f && s == f + ("," + rest)
  {
    var n := Span(s, IsNotComma);
    f := s[..n];
    assert forall k :: 0 <= k < |f| ==> f[k] != ',' by {
      forall k | 0 <= k < |f| ensures f[k] != ',' {
        assert IsNotComma(s[k]);
      }
    }
    assert s == s[..n] + [s[n]] + s[n + 1..];
  }

  lemma FourFieldsSound(s: string, rest: string) returns (f1: string, f2: string, f3: string, f4: string)
    requires FourFields(s) == Some(rest)
    ensures ',' !in f1 && ',' !in f2 && ',' !in f3 && ',' !in f4
    ensures s == f1 + ("," + (f2 + ("," + (f3 + ("," + (f4 + ("," + rest)))))))
  {
    var s1 := Field(s).value;
    var s2 := Field(s1).value;
    var s3 := Field(s2).value;
    f1 := FieldSound(s, s1);
    f2 := FieldSound(s1, s2);
    f3 := FieldSound(s2, s3);
    f4 := FieldSound(s3, rest);
  }

  lemma SegmentPartSound(s: string, segment: string, trimmed: string) returns (segGap: string, commaGap: string, source: string)
    requires SegmentPart(s) == Some((segment, trimmed))
    ensures AllSpace(segGap) && AllSpace(commaGap)
    ensures forall k :: 0 <= k < |segment| ==> IsWordChar(segment[k])
    ensures trimmed == Trim(source)
    ensures s == segGap + (segment + (commaGap + ("," + source)))
  {
    SkipSpaceSplit(s);
    segGap := s[..Span(s, IsSpace)];
    var seg := SkipSpace(s);
    var w := Span(seg, IsWordChar);
    source := Expect(SkipSpace(seg[w..]), ',').value;
    commaGap := GapThen(seg[w..], ',', source);
    assert segment == seg[..w];
    PrefixThenRest(seg, w);
    Nest(s, segGap, seg, segment, seg[w..]);
  }

  /** `a + (b + c)` once `s == a + t` and `t == b + c`. */
  lemma Nest(s: string, a: string, t: string, b: string, c: string)
    requires s == a + t && t == b + c
    ensures s == a + (b + c)
  {
  }

  /** Whatever the tail accepts is the text after a name, made of
      admissible pieces, with the groups taken from them. */
  lemma TailSound(s: string, c: Captures) returns (p: LineParts)
    requires Tail(s) == Some(c)
    ensures Loose(p) && AfterName(p) == s
    ensures c == Captures(p.hex, p.segment, Trim(p.source))
  {
    var (hex, afterSemi) := AddressPart(s).value;
    var nameGap, eqGap, semiGap := AddressPartSound(s, hex, afterSemi);
    var afterFields := FourFields(afterSemi).value;
    var f1, f2, f3, f4 := FourFieldsSound(afterSemi, afterFields);
    var (segment, trimmed) := SegmentPart(afterFields).value;
    var segGap, commaGap, source := SegmentPartSound(afterFields, segment, trimmed);
    p := LineParts("", "", nameGap, eqGap, hex, semiGap, f1, f2, f3, f4, segGap, segment, commaGap, source);
    assert FieldsText(p) == afterSemi;
  }

  /** Every line the pattern accepts is made of admissible pieces, and its
      symbol is built from them: the name, the hex value or the sentinel,
      the lower-cased segment and the trimmed source. With
      `ParseLineOfParts` this pins down exactly which lines yield a
      symbol. */
  lemma ParseLineSound(line: string, sym: Symbol) returns (p: LineParts)
    requires ParseLine(line) == Some(sym)
    ensures Loose(p) && LineText(p) == line
    ensures sym == Symbol(p.name, HexAddress(p.hex), Lower(p.segment), Trim(p.source))
  {
    var start := Span(line, IsSpace);
    var body := line[start..];
    var run := Span(body, IsNonSpace);
    var tails := Tails(body, run);
    var k := LastMatch(tails).value;
    TailsAt(body, run, k);
    var c := tails[k].value;
    assert sym == SymbolOf(body[..k], c);
    var t := TailSound(body[k..], c);
    RunHasNoSpace(body, k);
    SkipSpaceSplit(line);
    p := t.(lead := line[..start], name := body[..k]);
    assert AfterName(p) == AfterName(t);
    PrefixThenRest(body, k);
    Nest(line, line[..start], body, body[..k], body[k..]);
  }

  /** The fields of the example line from the map parser's documentation
      comment: `_frame_counter = $ADFA ; addr, public, xxx ,
      ula_interrupt_asm, data_user, ula_interrupt.asm:28`. */
  const FrameCounterParts := LineParts("", "_frame_counter", " ", " ", "ADFA", " ", " addr", " public", " xxx ",
                                       " ula_interrupt_asm", " ", "data_user", "", " ula_interrupt.asm:28")

  /** The example line, spelt from its fields. */
  const FrameCounterText: string := LineText(FrameCounterParts)

  lemma FrameCounterFields()
    ensures Value("ADFA", 16) == 0xADFA
    ensures Lower("data_user") == "data_user"
    ensures Trim(" ula_interrupt.asm:28") == "ula_interrupt.asm:28"
  {
    FrameCounterHex();
    FrameCounterSegment();
    FrameCounterSource();
  }

  lemma FrameCounterHex()
    ensures Value("ADFA", 16) == 0xADFA
  {
    assert Value("A", 16) == 10 by { assert "A"[..0] == ""; }
    assert Value("AD", 16) == 0xAD by { assert "AD"[..1] == "A"; }
    assert Value("ADF", 16) == 0xADF by { assert "ADF"[..2] == "AD"; }
    assert "ADFA"[..3] == "ADF";
  }

  lemma FrameCounterSegment()
    ensures Lower("data_user") == "data_user"
  {
    var d := "data_user";
    assert IsLowerText(d) by {
      forall k | 0 <= k < |d| ensures !IsUpper(d[k]) {
        assert d[k] in "data_user";
      }
    }
    LowerOfLowerText(d);
  }

  lemma FrameCounterSource()
    ensures Trim(" ula_interrupt.asm:28") == "ula_interrupt.asm:28"
  {
    SkipSpaceOverGap(" ", "ula_interrupt.asm:28");
    TrimOfNonSpaceEnds("ula_interrupt.asm:28");
  }

  lemma FrameCounterWellFormed()
    ensures WellFormed(FrameCounterParts)
  {
    var p := FrameCounterParts;
    assert AllSpace(" ");
    FrameCounterName();
    assert forall k :: 0 <= k < |p.hex| ==> IsHexDigit(p.hex[k]);
    FrameCounterCommaFree();
    assert forall k :: 0 <= k < |p.segment| ==> IsWordChar(p.segment[k]);
  }

  lemma FrameCounterName()
    ensures forall k :: 0 <= k < |FrameCounterParts.name| ==> !IsSpace(FrameCounterParts.name[k])
  {
    var n := "_frame_counter";
    forall k | 0 <= k < |n| ensures !IsSpace(n[k]) {
      assert n[k] in n;
    }
  }

  lemma FrameCounterCommaFree()
    ensures ',' !in FrameCounterParts.f1 && ',' !in FrameCounterParts.f2
    ensures ',' !in FrameCounterParts.f3 && ',' !in FrameCounterParts.f4
  {
  }

  /** The example parses to name `_frame_counter`, address 0xADFA, segment
      `data_user` and source `ula_interrupt.asm:28`. */
  lemma FrameCounterLine()
    ensures ParseLine(FrameCounterText) == Some(Symbol("_frame_counter", 0xADFA, "data_user", "ula_interrupt.asm:28"))
  {
    FrameCounterWellFormed();
    ParseLineOfParts(FrameCounterParts);
    FrameCounterFields();
    var p := FrameCounterParts;
    assert HexAddress(p.hex) == 0xADFA;
  }
}

=== FILE: nextmem.dfy ===
/** The ZX Spectrum Next page translator (`NextMemResolver`): eight MMU
    slots, each holding the bank mapped into one 8 KiB window of the 16-bit
    logical address space. A physical address is the bank number shifted
    left by 16 plus the offset inside the window.

    C#'s `>>` on `int` is an arithmetic shift and `&` with a small mask keeps
    the low bits of the two's-complement value; for a positive power of two
    these are exactly Dafny's Euclidean `/` and `%`, so the formulas below
    agree with the source for every 32-bit address, negative ones included. */
module NextMem {

  type Byte = x: int | 0 <= x < 256

  /** The `mmus` array: exactly eight slots. */
  type PageMap = s: seq<Byte> | |s| == 8 witness [255, 255, 10, 11, 4, 5, 0, 1]

  const SlotCount := 8
  const PageSize := 0x2000
  const BankSize := 0x10000

  /** The mapping a resolver starts with. */
  const DefaultPages: PageMap := [255, 255, 10, 11, 4, 5, 0, 1]

  /** `(address >> 13) & 0x07`: which 8 KiB window the address falls in. */
  function Slot(address: int): (i: int)
    ensures 0 <= i < SlotCount
    ensures 0 <= address < 0x10000 ==> i * PageSize <= address < (i + 1) * PageSize
  {
    (address / PageSize) % SlotCount
  }

  /** `address & 0x1fff`: the offset inside the window. */
  function PageOffset(address: int): (o: int)
    ensures 0 <= o < PageSize
    ensures 0 <= address < 0x10000 ==> address == Slot(address) * PageSize + o
  {
    address % PageSize
  }

  /** The bank part of a physical address, `physical >> 16`. */
  function Bank(physical: int): int {
    physical / BankSize
  }

  /** `GetPhysicalAddress`: the slot's bank in bits 16 and up, the window
      offset below. */
  function Translate(pages: PageMap, address: int): (p: int)
    ensures 0 <= p < 0x100_0000
    ensures Bank(p) == pages[Slot(address)]
    ensures p % BankSize == PageOffset(address) < PageSize
    ensures 0 <= address < 0x10000 ==> address == Slot(address) * PageSize + p % PageSize
  {
    PageOffset(address) + pages[Slot(address)] * BankSize
  }

  /** `setMMU`: maps `bank` into slot `slot` and leaves the other slots
      alone. An index outside 0..7 makes the source throw, so it is a
      precondition here. */
  function SetMMU(pages: PageMap, slot: int, bank: Byte): (r: PageMap)
    requires 0 <= slot < SlotCount
    ensures r[slot] == bank
    ensures forall j :: 0 <= j < SlotCount && j != slot ==> r[j] == pages[j]
    ensures forall a :: Slot(a) == slot ==> Translate(r, a) == bank * BankSize + PageOffset(a)
    ensures forall a :: Slot(a) != slot ==> Translate(r, a) == Translate(pages, a)
  {
    pages[slot := bank]
  }

  /** Two addresses translate alike under two page maps only if the slots
      involved hold the same banks: the map is observable through
      translation, slot by slot. */
  lemma {:induction false} TranslationDeterminesPages(p: PageMap, q: PageMap)
    requires forall slot :: 0 <= slot < SlotCount ==> Translate(p, slot * PageSize) == Translate(q, slot * PageSize)
    ensures p == q
  {
    forall j | 0 <= j < SlotCount
      ensures p[j] == q[j]
    {
      assert Slot(j * PageSize) == j;
      assert Bank(Translate(p, j * PageSize)) == p[j];
      assert Bank(Translate(q, j * PageSize)) == q[j];
    }
  }

  /** The translations written out for the default map and after mapping
      bank 0x20 into slot 6. */
  lemma DefaultTranslations()
    ensures Translate(DefaultPages, 0x0000) == 0xFF_0000
    ensures Translate(DefaultPages, 0x4000) == 0x0A_0000
    ensures Translate(DefaultPages, 0xC000) == 0x00_0000
    ensures Translate(DefaultPages, 0xFFFF) == 0x01_1FFF
    ensures Translate(SetMMU(DefaultPages, 6, 0x20), 0xC000) == 0x20_0000
    ensures Translate(SetMMU(DefaultPages, 6, 0x20), 0x0000) == 0xFF_0000
  {
  }

  /** The slot arithmetic above is the source's shift-and-mask on 16-bit
      addresses. */
  lemma SlotMatchesShift(a: bv16)
    ensures Slot(a as int) == ((a >> 13) & 7) as int
  {
  }
}

=== FILE: text.dfy ===
/** Character classes and string helpers shared by the map-file recogniser,
    the configuration reader and the number parser. Everything is ASCII:
    whitespace is the set `\t \n \v \f \r` and space, which is what the
    regular-expression class `\s`, `String.Trim` and the .NET number parser
    agree on for ASCII text. */
module Text {

  predicate IsSpace(c: char) {
    c == ' ' || '\t' <= c <= '\r'
  }

  predicate IsNonSpace(c: char) {
    !IsSpace(c)
  }

  predicate IsHexDigit(c: char) {
    '0' <= c <= '9' || 'a' <= c <= 'f' || 'A' <= c <= 'F'
  }

  predicate IsDecDigit(c: char) {
    '0' <= c <= '9'
  }

  /** The regular-expression class `\w`, restricted to ASCII. */
  predicate IsWordChar(c: char) {
    'a' <= c <= 'z' || 'A' <= c <= 'Z' || '0' <= c <= '9' || c == '_'
  }

  predicate IsNotComma(c: char) {
    c != ','
  }

  predicate IsUpper(c: char) {
    'A' <= c <= 'Z'
  }

  predicate AllSpace(s: string) {
    forall k :: 0 <= k < |s| ==> IsSpace(s[k])
  }

  /** Length of the longest prefix of `s` whose characters all satisfy `p`:
      the greedy match of `[p]*`. */
  function Span(s: string, p: char -> bool): (n: nat)
    ensures n <= |s|
    ensures forall k :: 0 <= k < n ==> p(s[k])
    ensures n < |s| ==> !p(s[n])
  {
    if |s| == 0 || !p(s[0]) then 0 else 1 + Span(s[1..], p)
  }

  /** Length of the longest suffix of `s` whose characters all satisfy `p`. */
  function SpanEnd(s: string, p: char -> bool): (n: nat)
    ensures n <= |s|
    ensures forall k :: |s| - n <= k < |s| ==> p(s[k])
    ensures n < |s| ==> !p(s[|s| - 1 - n])
  {
    if |s| == 0 || !p(s[|s| - 1]) then 0 else 1 + SpanEnd(s[..|s| - 1], p)
  }

  /** A greedy span stops exactly where a run of `p` characters meets a
      character that fails `p`. */
  lemma SpanOverRun(a: string, b: string, p: char -> bool)
    requires forall k :: 0 <= k < |a| ==> p(a[k])
    requires |b| == 0 || !p(b[0])
    ensures Span(a + b, p) == |a|
    ensures (a + b)[|a|..] == b
  {
  }

  function SkipSpace(s: string): string {
    s[Span(s, IsSpace)..]
  }

  lemma SkipSpaceOverGap(gap: string, rest: string)
    requires AllSpace(gap)
    requires |rest| == 0 || !IsSpace(rest[0])
    ensures SkipSpace(gap + rest) == rest
  {
    SpanOverRun(gap, rest, IsSpace);
  }

  /** The skipped white space and what follows it make up the text. */
  lemma SkipSpaceSplit(s: string)
    ensures AllSpace(s[..Span(s, IsSpace)])
    ensures s == s[..Span(s, IsSpace)] + SkipSpace(s)
  {
  }

  /** `r` is the slice of `s` starting at `i` with only whitespace around it. */
  predicate TrimmedAt(s: string, r: string, i: int) {
    && 0 <= i <= |s| - |r|
    && r == s[i..i + |r|]
    && AllSpace(s[..i])
    && AllSpace(s[i + |r|..])
  }

  /** `String.Trim`: drops leading and trailing whitespace. */
  function Trim(s: string): (r: string)
    ensures |r| > 0 ==> !IsSpace(r[0]) && !IsSpace(r[|r| - 1])
    ensures exists i :: TrimmedAt(s, r, i)
  {
    var a := Span(s, IsSpace);
    var t := s[a..];
    var b := SpanEnd(t, IsSpace);
    var r := t[..|t| - b];
    assert TrimmedAt(s, r, a) by {
      assert s[a + |r|..] == t[|t| - b..];
    }
    r
  }

  /** The trimmed text is a prefix of the text after the leading white
      space, and only white space follows it there. */
  lemma TrimSplit(s: string)
    ensures |Trim(s)| <= |SkipSpace(s)|
    ensures Trim(s) == SkipSpace(s)[..|Trim(s)|]
    ensures AllSpace(SkipSpace(s)[|Trim(s)|..])
  {
  }

  /** A greedy run of non-space characters that only white space follows
      is exactly `t`, when `t` is `body` with its white-space tail cut off. */
  lemma RunIsTrim(body: string, t: string, p: char -> bool)
    requires forall c :: p(c) ==> !IsSpace(c)
    requires |t| <= |body| && t == body[..|t|] && AllSpace(body[|t|..])
    requires |t| > 0 ==> !IsSpace(t[|t| - 1])
    ensures (Span(body, p) > 0 && AllSpace(body[Span(body, p)..])) <==> (|t| > 0 && forall k :: 0 <= k < |t| ==> p(t[k]))
    ensures Span(body, p) > 0 && AllSpace(body[Span(body, p)..]) ==> body[..Span(body, p)] == t
  {
    RunEndsAt(body, |t|, p);
    PrefixAll(body, t, p);
  }

  lemma PrefixAll(body: string, t: string, p: char -> bool)
    requires |t| <= |body| && t == body[..|t|]
    ensures (forall k :: 0 <= k < |t| ==> p(body[k])) <==> (forall k :: 0 <= k < |t| ==> p(t[k]))
  {
    forall k | 0 <= k < |t| ensures t[k] == body[k] {
    }
  }

  lemma RunEndsAt(body: string, m: nat, p: char -> bool)
    requires forall c :: p(c) ==> !IsSpace(c)
    requires m <= |body| && AllSpace(body[m..])
    requires m > 0 ==> !IsSpace(body[m - 1])
    ensures (Span(body, p) > 0 && AllSpace(body[Span(body, p)..])) <==> (m > 0 && forall k :: 0 <= k < m ==> p(body[k]))
    ensures Span(body, p) > 0 && AllSpace(body[Span(body, p)..]) ==> Span(body, p) == m
  {
  }

  /** Trimming leaves nothing exactly when the text is blank. */
  lemma TrimEmptyIffBlank(s: string)
    ensures Trim(s) == [] <==> AllSpace(s)
  {
    var i :| TrimmedAt(s, Trim(s), i);
    if Trim(s) == [] {
      assert s == s[..i] + s[i..];
    }
  }

  /** Trimming twice is trimming once. */
  lemma TrimIdem(s: string)
    ensures Trim(Trim(s)) == Trim(s)
  {
    if |Trim(s)| > 0 {
      TrimOfNonSpaceEnds(Trim(s));
    } else {
      TrimEmptyIffBlank(Trim(s));
      TrimEmptyIffBlank(Trim(Trim(s)));
    }
  }

  lemma TrimOfNonSpaceEnds(s: string)
    requires |s| > 0 && !IsSpace(s[0]) && !IsSpace(s[|s| - 1])
    ensures Trim(s) == s
  {
    assert Span(s, IsSpace) == 0;
    assert SpanEnd(s, IsSpace) == 0;
  }

  function LowerChar(c: char): (d: char)
    ensures !IsUpper(d)
    ensures IsUpper(c) ==> d as int == c as int + 32
    ensures !IsUpper(c) ==> d == c
  {
    if IsUpper(c) then (c as int + 32) as char else c
  }

  predicate IsLowerText(s: string) {
    forall k :: 0 <= k < |s| ==> !IsUpper(s[k])
  }

  /** ASCII `ToLower`. */
  function Lower(s: string): (r: string)
    ensures |r| == |s|
    ensures IsLowerText(r)
    ensures forall k :: 0 <= k < |s| ==> r[k] == LowerChar(s[k])
  {
    seq(|s|, k requires 0 <= k < |s| => LowerChar(s[k]))
  }

  /** Lower-casing leaves text without upper-case letters untouched. */
  lemma LowerOfLowerText(s: string)
    requires IsLowerText(s)
    ensures Lower(s) == s
  {
  }

  /** Lower-casing keeps word characters word characters. */
  lemma LowerKeepsWordChars(s: string)
    requires forall k :: 0 <= k < |s| ==> IsWordChar(s[k])
    ensures forall k :: 0 <= k < |s| ==> IsWordChar(Lower(s)[k])
  {
    forall k | 0 <= k < |s|
      ensures IsWordChar(Lower(s)[k])
    {
      assert Lower(s)[k] == LowerChar(s[k]);
    }
  }

  lemma InSuffix(x: char, s: string, i: nat)
    requires i <= |s| && x in s[i..]
    ensures x in s
  {
    var j :| 0 <= j < |s[i..]| && s[i..][j] == x;
    assert s[i + j] == x;
  }

  predicate StartsWith(s: string, prefix: string) {
    prefix <= s
  }

  predicate EndsWith(s: string, suffix: string) {
    |suffix| <= |s| && s[|s| - |suffix|..] == suffix
  }

  /** Length of the first piece: the text before the first `sep`. */
  function PieceEnd(s: string, sep: char): (n: nat)
    ensures n <= |s| && sep !in s[..n]
    ensures n < |s| ==> s[n] == sep
  {
    var n := Span(s, c => c != sep);
    assert forall k :: 0 <= k < n ==> s[..n][k] != sep;
    n
  }

  /** The first piece of `a + b` is `a` when `a` has no separator and `b`
      starts with one (or is empty). */
  lemma PieceEndOverRun(a: string, b: string, sep: char)
    requires sep !in a
    requires |b| == 0 || b[0] == sep
    ensures PieceEnd(a + b, sep) == |a|
  {
    SpanOverRun(a, b, c => c != sep);
  }

  /** `String.Split(sep)`: the pieces between separators, in order, with an
      empty piece wherever two separators meet or the text starts or ends
      with one. */
  function Split(s: string, sep: char): (r: seq<string>)
    ensures |r| >= 1
    ensures forall i :: 0 <= i < |r| ==> sep !in r[i]
    decreases |s|
  {
    var n := PieceEnd(s, sep);
    if n == |s| then [s] else [s[..n]] + Split(s[n + 1..], sep)
  }

  function Join(parts: seq<string>, sep: char): string
    requires |parts| >= 1
    decreases |parts|
  {
    if |parts| == 1 then parts[0] else parts[0] + [sep] + Join(parts[1..], sep)
  }

  /** Splitting loses nothing: joining the pieces back gives the text. */
  lemma {:induction false} JoinSplit(s: string, sep: char)
    ensures Join(Split(s, sep), sep) == s
    decreases |s|
  {
    var n := PieceEnd(s, sep);
    if n < |s| {
      var rest := s[n + 1..];
      var parts := Split(s, sep);
      assert parts == [s[..n]] + Split(rest, sep);
      assert parts[1..] == Split(rest, sep);
      JoinSplit(rest, sep);
      assert Join(parts, sep) == s[..n] + [sep] + rest;
      assert s == s[..n] + [s[n]] + rest;
    }
  }

  /** Splitting recovers the pieces of a join when no piece holds the
      separator. */
  lemma {:induction false} SplitJoin(parts: seq<string>, sep: char)
    requires |parts| >= 1
    requires forall i :: 0 <= i < |parts| ==> sep !in parts[i]
    ensures Split(Join(parts, sep), sep) == parts
    decreases |parts|
  {
    var p := parts[0];
    if |parts| == 1 {
      PieceEndOverRun(p, [], sep);
      assert p + [] == p;
    } else {
      var rest := Join(parts[1..], sep);
      assert Join(parts, sep) == p + [sep] + rest;
      SplitFirstPiece(p, rest, sep);
      SplitJoin(parts[1..], sep);
      assert parts == [p] + parts[1..];
    }
  }

  /** A separator-free first piece is split off whole. */
  lemma SplitFirstPiece(p: string, rest: string, sep: char)
    requires sep !in p
    ensures Split(p + [sep] + rest, sep) == [p] + Split(rest, sep)
  {
    var s := p + [sep] + rest;
    assert s == p + ([sep] + rest);
    PieceEndOverRun(p, [sep] + rest, sep);
    assert s[..|p|] == p;
    assert s[|p| + 1..] == rest;
  }

  // ---------------------------------------------------------------------
  // Digits

  function DigitValue(c: char): nat {
    if '0' <= c <= '9' then c as int - '0' as int
    else if 'a' <= c <= 'f' then c as int - 'a' as int + 10
    else if 'A' <= c <= 'F' then c as int - 'A' as int + 10
    else 0
  }

  function DigitChar(d: nat): (c: char)
    requires d < 16
    ensures DigitValue(c) == d
    ensures IsHexDigit(c)
    ensures d < 10 <==> IsDecDigit(c)
  {
    if d < 10 then ('0' as int + d) as char else ('A' as int + d - 10) as char
  }

  function Pow(b: nat, e: nat): nat {
    if e == 0 then 1 else b * Pow(b, e - 1)
  }

  /** Positional value of a digit string in base `base`, most significant
      digit first. */
  function Value(s: string, base: nat): nat {
    if |s| == 0 then 0 else Value(s[..|s| - 1], base) * base + DigitValue(s[|s| - 1])
  }

  /** `k` digits below `base` never reach `base^k`. */
  lemma {:induction false} ValueBound(s: string, base: nat)
    requires forall k :: 0 <= k < |s| ==> DigitValue(s[k]) < base
    ensures Value(s, base) < Pow(base, |s|)
  {
    if |s| > 0 {
      var init := s[..|s| - 1];
      ValueBound(init, base);
      var v := Value(init, base);
      var d := DigitValue(s[|s| - 1]);
      var p := Pow(base, |init|);
      MulLeq(v + 1, p, base);
      Distrib(v, base);
      Commute(p, base);
      assert Value(s, base) == v * base + d;
      assert Pow(base, |s|) == base * p;
    }
  }

  lemma MulLeq(a: nat, b: nat, c: nat)
    requires a <= b
    ensures a * c <= b * c
  {
  }

  lemma Distrib(a: nat, c: nat)
    ensures (a + 1) * c == a * c + c
  {
  }

  lemma Commute(a: nat, c: nat)
    ensures a * c == c * a
  {
  }

  lemma DivShrinks(n: nat, d: nat)
    requires d >= 2 && n >= d
    ensures 1 <= n / d < n
  {
  }

  lemma DivModSplit(n: nat, d: nat)
    requires d > 0
    ensures n == (n / d) * d + n % d
  {
  }

  /** Leading zeros add nothing to a value. */
  lemma {:induction false} ValueAfterZeros(zeros: string, s: string, base: nat)
    requires forall k :: 0 <= k < |zeros| ==> zeros[k] == '0'
    ensures Value(zeros + s, base) == Value(s, base)
    decreases |s|
  {
    if |s| == 0 {
      assert zeros + s == zeros;
      AllZeros(zeros, base);
    } else {
      var init := s[..|s| - 1];
      assert (zeros + s)[..|zeros + s| - 1] == zeros + init;
      ValueAfterZeros(zeros, init, base);
    }
  }

  lemma {:induction false} AllZeros(s: string, base: nat)
    requires forall k :: 0 <= k < |s| ==> s[k] == '0'
    ensures Value(s, base) == 0
  {
    if |s| > 0 {
      AllZeros(s[..|s| - 1], base);
    }
  }

  /** The digits of `n` in base `base`, most significant first, upper-case. */
  function ToDigits(n: nat, base: nat): (r: string)
    requires 2 <= base <= 16
    ensures |r| >= 1
    ensures forall k :: 0 <= k < |r| ==> IsHexDigit(r[k]) && DigitValue(r[k]) < base
    ensures base <= 10 ==> forall k :: 0 <= k < |r| ==> IsDecDigit(r[k])
  {
    if n < base then [DigitChar(n)]
    else
      DivShrinks(n, base);
      ToDigits(n / base, base) + [DigitChar(n % base)]
  }

  /** Reading the digits back gives the number. */
  lemma {:induction false} ValueOfToDigits(n: nat, base: nat)
    requires 2 <= base <= 16
    ensures Value(ToDigits(n, base), base) == n
  {
    if n >= base {
      var q, m := n / base, n % base;
      var init := ToDigits(q, base);
      var s := init + [DigitChar(m)];
      assert s == ToDigits(n, base);
      assert s[..|s| - 1] == init;
      assert DigitValue(s[|s| - 1]) == m;
      DivShrinks(n, base);
      ValueOfToDigits(q, base);
      assert Value(s, base) == Value(init, base) * base + m;
      DivModSplit(n, base);
    }
  }
}

=== FILE: wrappers.dfy ===
/** Failure-compatible wrappers: `Option` stands for a nullable reference
    and `Result` for a call that may throw instead of returning. */
module Wrappers {

  datatype Option<+T> = None | Some(value: T) {

    predicate IsFailure() {
      None?
    }

    function PropagateFailure<U>(): Option<U>
      requires None?
    {
      None
    }

    function Extract(): T
      requires Some?
    {
      value
    }
  }

  datatype Result<+R, +E> = Success(value: R) | Failure(error: E) {

    predicate IsFailure() {
      Failure?
    }

    function PropagateFailure<U>(): Result<U, E>
      requires Failure?
    {
      Failure(error)
    }

    function Extract(): R
      requires Success?
    {
      value
    }
  }
}

=== FILE: writeguard.dfy ===
/** The plugin's write hook (`ChaseTheBugPlugin.Write`): MMU register
    writes keep the page map in step; every other write is classified as
    a stack write, a write from code already reported, a write into a
    segment the rules mark as data, or a suspect write that is reported
    once per physical origin and pauses the emulator. */
module WriteGuard {
  import opened Wrappers
  import opened NextMem
  import opened Z88dkMap
  import opened PluginConfig
  import opened Text

  /** The first MMU register, NextReg 0x50; slots are 0x50..0x57. */
  const MMU0 := 0x50

  type Word = x: int | 0 <= x < 0x10000

  /** The CPU registers the hook reads: program counter and stack
      pointer. */
  datatype Registers = Registers(pc: Word, sp: Word)

  /** The two kinds of access the hook is registered for. */
  datatype Access = NextRegWrite(port: int, value: Byte) | MemoryWrite(port: int, value: Byte)

  /** What a reported write shows: where the writing code is, where the
      write lands, and the value. */
  datatype Report = Report(origin: Resolved, target: Resolved, value: Byte)

  /** The state the hook threads through: the page map and the physical
      origins already reported. */
  datatype Guard = Guard(pages: PageMap, visited: set<int>)

  /** The state after the write, the report (whose presence is the request
      to pause) and the hook's return value. */
  datatype Outcome = Outcome(guard: Guard, report: Option<Report>, handled: bool)

  /** `mmus[(byte)(port - 0x50)]` outside the array. */
  datatype Fault = MmuIndexOutOfRange(index: int)

  /** `(byte)(port - MMU0)`: the unchecked cast keeps the low eight bits. */
  function MmuIndex(port: int): (i: int)
    ensures 0 <= i < 256
    ensures MMU0 <= port < MMU0 + SlotCount ==> i == port - MMU0
  {
    (port - MMU0) % 256
  }

  /** A write to the stack: the target is SP or SP + 1, computed without
      16-bit wrap-around. */
  predicate StackWrite(regs: Registers, port: int) {
    regs.sp == port || regs.sp + 1 == port
  }

  /** The rules let the program write where the target resolves. */
  predicate WritableTarget(rules: Rules, target: Resolved) {
    target.symbol.Some? && Writable(rules, target.symbol.value.segment)
  }

  /** `Write`. The hook never claims the access (it always returns false). */
  function Write(table: MapFile, rules: Rules, g: Guard, regs: Registers, a: Access): (r: Result<Outcome, Fault>)
    requires Indexed(table)
    ensures r.Success? ==> !r.value.handled
    ensures r.Failure? <==> a.NextRegWrite? && MmuIndex(a.port) >= SlotCount
    ensures r.Success? && a.NextRegWrite? ==>
      && r.value.report.None? && r.value.guard.visited == g.visited
      && r.value.guard.pages[MmuIndex(a.port)] == a.value
      && forall j :: 0 <= j < SlotCount && j != MmuIndex(a.port) ==> r.value.guard.pages[j] == g.pages[j]
    ensures a.MemoryWrite? ==> r.Success? && r.value.guard.pages == g.pages
    ensures a.MemoryWrite? && StackWrite(regs, a.port) ==> r == Success(Outcome(g, None, false))
    ensures a.MemoryWrite? && Translate(g.pages, regs.pc) in g.visited ==> r == Success(Outcome(g, None, false))
    ensures a.MemoryWrite? ==>
      (r.value.report.Some? <==>
         && !StackWrite(regs, a.port)
         && Translate(g.pages, regs.pc) !in g.visited
         && !WritableTarget(rules, LookupSymbol(table, a.port, g.pages)))
    ensures a.MemoryWrite? && r.value.report.None? ==> r.value.guard == g
    ensures a.MemoryWrite? && r.value.report.Some? ==>
      && r.value.guard.visited == g.visited + {Translate(g.pages, regs.pc)}
      && r.value.report.value.origin.logical == regs.pc
      && r.value.report.value.origin.physical == Translate(g.pages, regs.pc)
      && r.value.report.value.target.logical == a.port
      && r.value.report.value.value == a.value
  {
    match a
    case NextRegWrite(port, value) =>
      var slot := MmuIndex(port);
      if slot < SlotCount then Success(Outcome(g.(pages := SetMMU(g.pages, slot, value)), None, false))
      else Failure(MmuIndexOutOfRange(slot))
    case MemoryWrite(port, value) =>
      if StackWrite(regs, port) then Success(Outcome(g, None, false))
      else
        var origin := LookupSymbol(table, regs.pc, g.pages);
        if origin.physical in g.visited then Success(Outcome(g, None, false))
        else
          var target := LookupSymbol(table, port, g.pages);
          if WritableTarget(rules, target) then Success(Outcome(g, None, false))
          else Success(Outcome(g.(visited := g.visited + {origin.physical}), Some(Report(origin, target, value)), false))
  }

  // ---------------------------------------------------------------------
  // A run of writes

  datatype Event = Event(regs: Registers, access: Access)

  /** The physical origins of a list of reports. */
  function Origins(reports: seq<Report>): set<int> {
    set i | 0 <= i < |reports| :: reports[i].origin.physical
  }

  lemma OriginsAppend(reports: seq<Report>, rep: Report)
    ensures Origins(reports + [rep]) == Origins(reports) + {rep.origin.physical}
    ensures forall i :: 0 <= i < |reports| ==> reports[i].origin.physical in Origins(reports)
  {
    var all := reports + [rep];
    assert all[|reports|] == rep;
    forall x | x in Origins(all) ensures x in Origins(reports) + {rep.origin.physical} {
      var i :| 0 <= i < |all| && all[i].origin.physical == x;
      if i < |reports| { assert all[i] == reports[i]; }
    }
    forall i | 0 <= i < |reports| ensures reports[i].origin.physical in Origins(all) {
      assert all[i] == reports[i];
    }
  }

  /** The hook applied to each event in turn; the first fault stops the
      run. The visited set only grows, by exactly the origins reported, and
      no origin is reported twice or reported after it was visited. */
  function Run(table: MapFile, rules: Rules, g: Guard, events: seq<Event>): (r: Result<(Guard, seq<Report>), Fault>)
    requires Indexed(table)
    ensures r.Success? ==> r.value.0.visited == g.visited + Origins(r.value.1)
    ensures r.Success? ==> forall i :: 0 <= i < |r.value.1| ==> r.value.1[i].origin.physical !in g.visited
    ensures r.Success? ==> forall i, j :: 0 <= i < j < |r.value.1| ==> r.value.1[i].origin.physical != r.value.1[j].origin.physical
    decreases |events|
  {
    if |events| == 0 then Success((g, []))
    else
      var (g1, reports) :- Run(table, rules, g, events[..|events| - 1]);
      var e := events[|events| - 1];
      var o :- Write(table, rules, g1, e.regs, e.access);
      match o.report
      case None =>
        assert o.guard.visited == g1.visited;
        Success((o.guard, reports))
      case Some(rep) =>
        var all := reports + [rep];
        assert rep.origin.physical !in g1.visited;
        OriginsAppend(reports, rep);
        Success((o.guard, all))
  }

  /** Once a physical origin is visited, every later memory write from it
      passes silently, whatever it writes and wherever. */
  lemma VisitedOriginStaysQuiet(table: MapFile, rules: Rules, g: Guard, events: seq<Event>, regs: Registers, port: int, value: Byte)
    requires Indexed(table)
    requires Run(table, rules, g, events).Success?
    requires Translate(Run(table, rules, g, events).value.0.pages, regs.pc) in Run(table, rules, g, events).value.0.visited
    ensures var g1 := Run(table, rules, g, events).value.0;
            Write(table, rules, g1, regs, MemoryWrite(port, value)) == Success(Outcome(g1, None, false))
  {
  }

  // ---------------------------------------------------------------------
  // Configuration and page map seen through the hook

  /** A `DataSufixes=` entry silences writes into every segment that ends
      with its normal form. */
  lemma ConfiguredSuffixSilences(files: set<string>, c: Config, v: string, table: MapFile, g: Guard, regs: Registers, port: int, value: Byte)
    requires Indexed(table) && ',' !in v
    requires LookupSymbol(table, port, g.pages).symbol.Some?
    requires EndsWith(LookupSymbol(table, port, g.pages).symbol.value.segment, NormSuffix(v))
    ensures ApplyLine(files, c, SuffixKey + v).Success?
    ensures Write(table, ApplyLine(files, c, SuffixKey + v).value.rules, g, regs, MemoryWrite(port, value))
         == Success(Outcome(g, None, false))
  {
    SuffixRuleAdmits(files, c, v, LookupSymbol(table, port, g.pages).symbol.value.segment);
  }

  /** A write to NextReg 0x56 maps the bank into slot 6: 0xC000 then lies at
      the start of that bank, and the other slots still translate as
      before. */
  lemma MmuWriteRemaps(table: MapFile, rules: Rules, g: Guard, regs: Registers, bank: Byte)
    requires Indexed(table)
    ensures Write(table, rules, g, regs, NextRegWrite(0x56, bank)).Success?
    ensures var p := Write(table, rules, g, regs, NextRegWrite(0x56, bank)).value.guard.pages;
            && Translate(p, 0xC000) == bank * BankSize
            && forall a :: Slot(a) != 6 ==> Translate(p, a) == Translate(g.pages, a)
  {
    assert MmuIndex(0x56) == 6;
    assert Slot(0xC000) == 6;
  }

  /** An out-of-range MMU register index is a fault, not a state change. */
  lemma BadMmuIndexFaults(table: MapFile, rules: Rules, g: Guard, regs: Registers, value: Byte)
    requires Indexed(table)
    ensures Write(table, rules, g, regs, NextRegWrite(0x58, value)) == Failure(MmuIndexOutOfRange(8))
    ensures Write(table, rules, g, regs, NextRegWrite(0x4F, value)) == Failure(MmuIndexOutOfRange(255))
  {
  }
}
